=== FILE: README.md ===
# Clarity Digital site core in Dafny

This project models the logic of the Clarity Digital marketing site, a
Next.js application. The page layout and styling are not modelled. What the
model covers:

- **Contact pipeline.** The `contactSchema` validation rules and option
  tables. The `/api/contact` handler, which validates a lead, derives display
  labels and sends an operator notification and then a submitter
  confirmation. The client `ContactForm` submit logic: the three-second spam
  gate, the in-flight state, the success and error views, and the driver
  checkboxes.
- **Cache revalidation.** The `/api/revalidate` webhook: the secret check and
  the mapping from document type to cache tags.
- **Navigation.** The navigation table and its active-path rule. The hover
  dropdown of the desktop header. The mobile menu with its submenus. The
  floating header's state: hover dropdown, overlay menu, closing the menu on
  a route change, and the body scroll lock.
- **Content helpers.** Project filtering in the work grid. The two-row
  testimonial marquee. The paragraph and bullet splitting of service pages.
  How `TextReveal` cuts text into pieces. The FAQ accordion. The project
  filter chips. The theme provider. `createMetadata`.
- **Hero animation.** The `BrowserMockup` script: a 9-second clock ticking by
  16 ms and wrapping, the phase flags derived from the timeline, the typed
  text, the eased cursor path and the fade-in and fade-out.

JavaScript conventions are modelled in `Js` and `Strings`:

- `undefined`/`null` is `None`.
- Truthiness of strings: `''` is falsy.
- `a || b`.
- `split` and `join`, with `"".split('')` giving `[]` but `"".split(' ')`
  giving `[""]`.
- `trim` over the ECMAScript white-space set.
- `startsWith`.
- `length`, which counts UTF-16 code units (`Strings.Utf16Length`): a
  character outside the Basic Multilingual Plane counts twice.
- `%`, which truncates toward zero.

Effects become parameters:

- the email provider's answer to each send (`Sent`, `Refused` or `Threw`);
- the `fetch` result;
- the elapsed time since the form mounted;
- the environment variables;
- zod's `email()` and `url()` format checks, which are uninterpreted
  functions in `FormatChecks`.

Each component with state is a pure transition function over an immutable
state record. Event sequences are folded with `Run`.

Two details of the code that a reader might not expect:

- `SUCCESS_HOLD_END` and `FADE_OUT_START` are both 8500
  (components/effects/browser-mockup.tsx:32-33), so the phase boundaries
  are only non-decreasing, not strictly increasing
  (`BrowserMockup.BreakpointsOrdered`).
- The notification HTML interpolates the field values unescaped. The model
  keeps the raw values (`ContactRoute.Notification` carries the lead
  itself).

Other behaviour of the code that the proofs make explicit:

- A lead that fails validation gets the same 500 response as a provider
  failure (`ContactRoute.InvalidBodySendsNothing`).
- A confirmation send that throws, rather than returning an error, reaches
  the outer `catch`. The lead is then told the request failed, although the
  notification went out (`ContactRoute.Post`).
- With `SANITY_REVALIDATE_SECRET` unset, every webhook call is refused,
  because `null !== undefined` (`RevalidateRoute.UnsetSecretRefusesAll`).
- A `TextReveal` type other than `'char'`, `'word'` or `'line'` splits on
  spaces but adds no spacer, so the words run together
  (`TextReveal.OtherRevealDropsSpaces`). The prop's type admits only the
  three names, and a missing type means `'word'`, so this case is reached
  only by an untyped caller or a cast; the site itself never shows it.
- Toggling the same submenu or FAQ entry twice does not always close it.
  Starting from that entry open, two clicks leave it open again
  (`MobileNav.ToggleTwice`, `ServiceFaq.ClickTwice`).

## Model

| member | source | states |
|---|---|---|
| BrowserMockup.BreakpointsOrdered | components/effects/browser-mockup.tsx:13-34 | the phase boundaries are non-decreasing and lie strictly inside the 9000 ms cycle; the success hold ends exactly at the fade-out start |
| BrowserMockup.Tick | components/effects/browser-mockup.tsx:76-80 | one 16 ms tick keeps the clock in [0, 9000): it advances by 16 inside the cycle and wraps past the end to the remainder |
| BrowserMockup.ClockClosedForm | components/effects/browser-mockup.tsx:64-83 | after n ticks from 0 the clock reads (16·n) mod 9000 |
| BrowserMockup.ClockFirstCycle | components/effects/browser-mockup.tsx:64-83 | during the first 563 ticks the clock is 16·n, with no wrap |
| BrowserMockup.ClockSecondCycle | components/effects/browser-mockup.tsx:64-83 | in the second pass the clock is 16·n − 9000, off the first pass's grid by 8 ms |
| BrowserMockup.ClockReturnsToZero | components/effects/browser-mockup.tsx:64-83 | every 1125 ticks the clock is back at exactly 0 |
| BrowserMockup.ClockPeriodic | components/effects/browser-mockup.tsx:64-83 | the clock sequence is periodic with period 1125 ticks |
| BrowserMockup.TypedText | components/effects/browser-mockup.tsx:105-111 | the typed text is always a prefix of the full text: empty before the window, complete after it, and proportional to elapsed time inside it |
| BrowserMockup.TypedTextMonotone | components/effects/browser-mockup.tsx:105-111 | typed text never gets shorter as time advances |
| BrowserMockup.EaseInUnit | components/effects/browser-mockup.tsx:584-596 | the cubic ease-out maps [0, 1] into [0, 1] monotonically |
| BrowserMockup.Interpolate | components/effects/browser-mockup.tsx:584-596 | interpolation starts at the origin point, ends at the target point and stays between them on both axes |
| BrowserMockup.CursorPathContinuous | components/effects/browser-mockup.tsx:117-165 | each cursor move starts at the anchor the cursor rested on and ends at the next one, so the path has no jump within a cycle |
| BrowserMockup.CursorAt | components/effects/browser-mockup.tsx:117-165 | `getCursorPosition` as a function of time; its phases and the joins between them are stated by CursorPathContinuous and WrapIsHiddenByFade |
| BrowserMockup.FadeBounds | components/effects/browser-mockup.tsx:170-183 | opacity starts at 0, stays within [0, 1] and is fully opaque between fade-in end and fade-out start |
| BrowserMockup.FadeSymmetric | components/effects/browser-mockup.tsx:170-183 | the fade-out mirrors the fade-in |
| BrowserMockup.FadeOpacity | components/effects/browser-mockup.tsx:170-183 | `getFadeOpacity` as a function of time; its bounds and symmetry are stated by FadeBounds, FadeSymmetric and WrapIsHiddenByFade |
| BrowserMockup.WrapIsHiddenByFade | components/effects/browser-mockup.tsx:76-80 | at the wrap the cursor jumps from the submit button to its rest position, and both frames are almost transparent |
| BrowserMockup.FrameAt | components/effects/browser-mockup.tsx:86-114 | the flags of one frame agree: the notification only shows over the modal; address and email are never focused together; the I-beam shows exactly while the cursor is over the inputs; typed values are prefixes of the script's texts |
| BrowserMockup.ShowModal | components/effects/browser-mockup.tsx:86 | the modal is open from the CTA click to the fade-out, as a half-open interval of the cycle; how the flags relate is stated by FrameAt |
| BrowserMockup.ShowNotification | components/effects/browser-mockup.tsx:87 | the success notification shows from its slide-in to the fade-out, as a half-open interval of the cycle; how the flags relate is stated by FrameAt |
| BrowserMockup.IsCtaHovered | components/effects/browser-mockup.tsx:89 | the CTA is hovered from the cursor's arrival to the end of the click, as a half-open interval of the cycle; how the flags relate is stated by FrameAt |
| BrowserMockup.IsCtaClicked | components/effects/browser-mockup.tsx:90 | the CTA is pressed from the end of the hover to the end of the modal's entrance, as a half-open interval of the cycle; how the flags relate is stated by FrameAt |
| BrowserMockup.IsAddressFocused | components/effects/browser-mockup.tsx:92 | the address input is focused from its focus time until the cursor reaches the email input, as a half-open interval of the cycle; how the flags relate is stated by FrameAt |
| BrowserMockup.IsEmailFocused | components/effects/browser-mockup.tsx:93 | the email input is focused from its focus time until the cursor reaches the submit button, as a half-open interval of the cycle; how the flags relate is stated by FrameAt |
| BrowserMockup.IsSubmitHovered | components/effects/browser-mockup.tsx:95 | the submit button is hovered from the cursor's arrival to the end of the click, as a half-open interval of the cycle; how the flags relate is stated by FrameAt |
| BrowserMockup.IsSubmitClicked | components/effects/browser-mockup.tsx:96 | the submit button is pressed from the end of the hover to the end of loading, as a half-open interval of the cycle; how the flags relate is stated by FrameAt |
| BrowserMockup.IsLoading | components/effects/browser-mockup.tsx:97 | the spinner shows from the submit click until the notification is in, as a half-open interval of the cycle; how the flags relate is stated by FrameAt |
| BrowserMockup.IsOverTextInput | components/effects/browser-mockup.tsx:100-102 | the I-beam shows while the cursor is over the address or the email input, as a half-open interval of the cycle; how the flags relate is stated by FrameAt |
| ContactValidation.RoleOptionsWellFormed | lib/validations/contact.ts:4-11 | role codes are distinct and every role label is non-empty |
| ContactValidation.IndustryOptionsWellFormed | lib/validations/contact.ts:14-29 | industry codes are distinct and every industry label is non-empty |
| ContactValidation.ProjectTypeOptionsWellFormed | lib/validations/contact.ts:32-41 | project-type codes are distinct and every project-type label is non-empty |
| ContactValidation.ExistingWebsiteOptionsWellFormed | lib/validations/contact.ts:44-48 | existing-website codes are distinct and every label is non-empty |
| ContactValidation.ProjectDriverOptionsWellFormed | lib/validations/contact.ts:51-63 | project-driver codes are distinct and every driver label is non-empty |
| ContactValidation.TimelineOptionsWellFormed | lib/validations/contact.ts:66-72 | timeline codes are distinct and every timeline label is non-empty |
| ContactValidation.BudgetOptionsWellFormed | lib/validations/contact.ts:75-82 | budget codes are distinct and every budget label is non-empty |
| ContactValidation.ReferralSourceOptionsWellFormed | lib/validations/contact.ts:85-91 | referral codes are distinct and every referral label is non-empty |
| ContactValidation.LabelFromValue | lib/validations/contact.ts:123-128 | the label of the first entry with the given code (the code itself if that label is empty); an unknown code labels as itself |
| ContactValidation.LookupHit | lib/validations/contact.ts:123-128 | in a well-formed table, looking up any entry's code gives that entry's label |
| ContactValidation.LookupResolves | lib/validations/contact.ts:123-128 | in a well-formed table a lookup gives the label of the entry carrying the code, and the code itself when no entry does |
| ContactValidation.FailingFields | lib/validations/contact.ts:94-118 | the listed fields are exactly the fields that break their schema rule |
| ContactValidation.ValidIffNoFailingField | lib/validations/contact.ts:94-118 | a lead passes the schema if and only if no field fails |
| ContactValidation.IsValid | lib/validations/contact.ts:94-118 | `contactSchema` as a predicate; its meaning is stated by ValidIffNoFailingField, LengthRules, EmptyDriversRejected, HoneypotRejected, EnumsCheckedOnlyForNonEmpty, UrlRuleIndependentOfExistingWebsite and OptionalFieldsUnconstrained |
| ContactValidation.FieldOk | lib/validations/contact.ts:94-118 | the rule of one schema field; it is tied to IsValid by ValidIffNoFailingField and read through FailingFields |
| ContactValidation.LengthRules | lib/validations/contact.ts:96-113 | a valid lead has a name of at least 2 UTF-16 code units, a description of at least 50 and non-empty required selects; a short name, a short description or a missing company is reported as that field |
| ContactValidation.NameLengthCountsCodeUnits | lib/validations/contact.ts:96 | the name rule counts JavaScript length: one emoji (two code units) passes min(2), one letter does not |
| Strings.Utf16Length | lib/validations/contact.ts:96 | the JavaScript length lies between the number of characters and twice that, and equals it for text inside the Basic Multilingual Plane |
| ContactValidation.EmptyDriversRejected | lib/validations/contact.ts:107 | a lead with no project driver is rejected, on the drivers field |
| ContactValidation.HoneypotRejected | lib/validations/contact.ts:117 | a filled honeypot makes the lead invalid, on the honeypot field |
| ContactValidation.EnumsCheckedOnlyForNonEmpty | lib/validations/contact.ts:100-109 | the select fields are only checked to be non-empty: any non-empty codes keep a valid lead valid |
| ContactValidation.UnknownCodeLabelsToItself | lib/validations/contact.ts:100 | a role code outside the table still validates, and its label is the code itself |
| ContactValidation.UrlRuleIndependentOfExistingWebsite | lib/validations/contact.ts:105-106 | the website URL rule does not depend on the existing-website answer; an absent or empty URL always passes |
| ContactValidation.OptionalFieldsUnconstrained | lib/validations/contact.ts:98 | phone, notes and referral source never affect validity |
| ContactRoute.Recipient | app/api/contact/route.ts:43 | the notification goes to CONTACT_EMAIL when it is set and non-empty, otherwise to the fixed operator address; never to an empty address |
| ContactRoute.ReferralLabel | app/api/contact/route.ts:30-32 | a missing or empty referral source reads "Not specified", otherwise its table label |
| ContactRoute.DriverLabels | app/api/contact/route.ts:35-36 | one label per driver, in the same order, each its table label |
| ContactRoute.KnownCodesResolve | app/api/contact/route.ts:24-36 | a known project-type code resolves to its table label, and every known driver code contributes its label |
| ContactRoute.DeriveLabels | app/api/contact/route.ts:24-36 | the role, industry, project-type, existing-website, timeline and budget answers each show their table label, or the code itself when the table lacks it; the referral likewise when given and "Not specified" otherwise; one driver label per driver, in order, each resolved the same way |
| ContactRoute.FirstName | app/api/contact/route.ts:38 | the first name is the longest space-free prefix of the full name |
| ContactRoute.NotificationSubject | app/api/contact/route.ts:44 | the subject is "New Lead: ", then the company, then " - " and the project-type label |
| ContactRoute.Post | app/api/contact/route.ts:16-225 | the response is 200 success exactly when the body is a valid lead, the notification was accepted and the confirmation did not throw; otherwise 500 with the generic message. Nothing is sent for an invalid body; the confirmation is sent only after an accepted notification |
| ContactRoute.InvalidBodySendsNothing | app/api/contact/route.ts:18-19 | a malformed or invalid body gives the generic 500 and sends no message |
| ContactRoute.NotificationIsAuthoritative | app/api/contact/route.ts:145-148 | a failed notification gives 500 and the confirmation is never attempted |
| ContactRoute.ConfirmationIsBestEffort | app/api/contact/route.ts:212-217 | a refused confirmation is only logged: the lead still gets success, after both messages were attempted |
| ContactRoute.ConfirmationIrrelevantBeforeNotification | app/api/contact/route.ts:145-154 | when the notification fails, the outcome is the same whatever the confirmation would have done |
| ContactRoute.MessagesAddressed | app/api/contact/route.ts:41-154 | the notification comes from the no-reply sender, goes to the operator and carries the lead; phone, website and notes show only when present. The confirmation goes to the submitter with the fixed subject and a first-name greeting |
| ContactRoute.NotificationFor | app/api/contact/route.ts:41-141 | the operator notification; its sender, recipient, subject and optional rows are stated by MessagesAddressed, Recipient and NotificationSubject |
| ContactRoute.ConfirmationFor | app/api/contact/route.ts:151-208 | the confirmation to the submitter; its recipient, subject and greeting are stated by MessagesAddressed and FirstName |
| ContactForm.OnSubmit | components/sections/contact-form.tsx:53-83 | under 3 s nothing is sent and the status is error; otherwise the form is in flight while the request runs. A 2xx response stores the first name and project label and resets the draft; anything else ends in error, never still submitting |
| ContactForm.HandleSubmit | components/sections/contact-form.tsx:146 | a request only ever carries the current draft, and only when it passes the schema |
| ContactForm.TooFastIsRejected | components/sections/contact-form.tsx:55-58 | a valid draft submitted within 3 s is not sent, shows the error banner and leaves the submitting flag alone |
| ContactForm.HoneypotNeverSent | components/sections/contact-form.tsx:146-148 | a draft with a filled honeypot is never sent, and the error summary box appears |
| ContactForm.InvalidDraftNeverSent | components/sections/contact-form.tsx:146-148 | an invalid draft is never sent, and the error summary shows |
| ContactForm.SummaryLines | components/sections/contact-form.tsx:148-167 | the summary box lists exactly the failing fields among the eleven it has lines for |
| ContactForm.HoneypotBoxIsEmpty | components/sections/contact-form.tsx:148-167 | when the honeypot is the only fault, the box appears after a submit but lists nothing |
| ContactForm.ShowErrorSummary | components/sections/contact-form.tsx:148 | `isSubmitted && hasErrors`; when it shows is stated by HoneypotNeverSent, InvalidDraftNeverSent and HoneypotBoxIsEmpty |
| ContactForm.InFlightDisablesSubmit | components/sections/contact-form.tsx:60-81 | while a request is in flight the submit button is disabled and no error banner shows; afterwards it is enabled again |
| ContactForm.SubmitDisabled | components/sections/contact-form.tsx:596 | the submit button follows `isSubmitting`; when it is disabled is stated by InFlightDisablesSubmit |
| ContactForm.OutcomeFollowsResponse | components/sections/contact-form.tsx:70-79 | after a request, the success view shows if and only if the response was 2xx, and the error banner otherwise |
| ContactForm.ShowSuccessView | components/sections/contact-form.tsx:97 | the success view replaces the form; when it shows is stated by OutcomeFollowsResponse and JaneDoeExample |
| ContactForm.FirstNameOfTwoWords | components/sections/contact-form.tsx:72 | a two-word name greets the submitter by its first word |
| ContactForm.JaneDoeExample | components/sections/contact-form.tsx:53-83 | end to end: a valid lead accepted by the handler shows the success view with "Jane" and "New Website" |
| ContactForm.ToggleDriver | components/sections/contact-form.tsx:425-429 | checking a driver appends it; unchecking removes every copy of it and keeps all other drivers, in order and with their counts |
| ContactForm.CheckThenUncheck | components/sections/contact-form.tsx:425-429 | checking and then unchecking a driver that was not selected restores the selection |
| ContactForm.CheckCountsOnce | components/sections/contact-form.tsx:425-429 | checking a driver adds exactly one occurrence of it |
| ContactForm.UrlFieldOnlyForYes | components/sections/contact-form.tsx:379 | the URL input is drawn exactly when the existing-website answer is "yes"; a URL typed before switching away is still checked by the URL rule |
| ContactForm.ShowUrlField | components/sections/contact-form.tsx:379 | the URL input is drawn for the answer "yes"; stated with its consequence for validation by UrlFieldOnlyForYes |
| RevalidateRoute.TagsFor | app/api/revalidate/route.ts:18-41 | a known document type revalidates exactly its own tag; any other value revalidates every tag |
| RevalidateRoute.Post | app/api/revalidate/route.ts:4-55 | a wrong secret gives 401 with no revalidation; an unreadable body gives 500; otherwise 200 echoes the type. Tags are revalidated exactly when the answer is 200 |
| RevalidateRoute.SecretCheckedFirst | app/api/revalidate/route.ts:10-12 | with a wrong secret the body is never looked at: 401 and no tags, whatever it holds |
| RevalidateRoute.UnsetSecretRefusesAll | app/api/revalidate/route.ts:10 | with the secret unconfigured every request is refused |
| RevalidateRoute.SecretMatches | app/api/revalidate/route.ts:10 | the negated `!==` test; that it gates everything and never matches an unset secret is stated by SecretCheckedFirst and UnsetSecretRefusesAll |
| RevalidateRoute.KnownTypesAreSelective | app/api/revalidate/route.ts:19-33 | distinct known types revalidate distinct single tags |
| RevalidateRoute.EveryTagReachable | app/api/revalidate/route.ts:18-41 | every tag has a type that revalidates it alone, and an unknown type revalidates it too |
| ProjectGrid.FilteredProjects | components/work/project-grid.tsx:22-26 | "all" shows every project; another tab shows exactly the projects of that service type, in their order |
| ProjectGrid.FilterKeepsMultiplicity | components/work/project-grid.tsx:24-26 | a service tab keeps every matching project as often as it occurs and drops all others |
| ProjectGrid.Render | components/work/project-grid.tsx:29-98 | the placeholder shows exactly when there are no projects; otherwise the grid shows the filtered list, with the no-match message exactly when that list is empty |
| ProjectGrid.ViewAllShowsEverything | components/work/project-grid.tsx:22-98 | under "all", which is also where "View all" returns, a non-empty list is shown in full with no no-match message |
| ProjectGrid.SeoOnlyUnderAll | components/work/project-grid.tsx:13-26 | no tab selects SEO projects, so they appear only under "all" |
| TestimonialMarquee.Midpoint | components/sections/testimonial-marquee.tsx:31 | the midpoint is half the count, rounded up |
| TestimonialMarquee.SplitRows | components/sections/testimonial-marquee.tsx:31-33 | the two rows together are the testimonials in order, and the first row is at most one longer |
| TestimonialMarquee.TrackCopies | components/sections/testimonial-marquee.tsx:57-115 | each of the four copies of a row holds the row in order; the first two are visible, the last two hidden |
| TestimonialMarquee.HalfVisible | components/sections/testimonial-marquee.tsx:57-115 | exactly the first half of a track is visible to assistive technology |
| TestimonialMarquee.Render | components/sections/testimonial-marquee.tsx:26-115 | the placeholder shows exactly when there are no testimonials; otherwise each row's track is built from its half |
| TestimonialMarquee.EveryItemShown | components/sections/testimonial-marquee.tsx:31-115 | each testimonial lands in exactly one row and appears in both visible copies of it |
| ServiceContent.Paragraphs | components/services/service-content.tsx:42 | the paragraphs joined with blank lines give the text back |
| ServiceContent.Bullets | components/services/service-content.tsx:104-107 | bullets are non-empty, contain no bullet character, are trimmed at both ends and keep the pieces' order |
| ServiceContent.BulletsKeepNonEmptyPieces | components/services/service-content.tsx:104-107 | every non-empty trimmed piece is a bullet as often as it occurs, and nothing else is |
| ServiceContent.NoBulletCharNoList | components/services/service-content.tsx:101 | content without a bullet character is never treated as a list |
| ServiceContent.IsBulletList | components/services/service-content.tsx:101 | `trim().startsWith('•')`; its use and consequences are stated by RenderSubsection and NoBulletCharNoList |
| ServiceContent.RenderSubsection | components/services/service-content.tsx:101-138 | a subsection renders as bullets exactly when its trimmed content starts with a bullet; otherwise as paragraphs that join back to the content |
| ServiceContent.RenderSubsections | components/services/service-content.tsx:97-138 | one block per subsection, in order, and none for an empty list |
| TextReveal.CharItemsRoundTrip | components/ui/text-reveal.tsx:88-89 | the character pieces concatenate back to the text, one per Unicode scalar value |
| TextReveal.WordItemsRoundTrip | components/ui/text-reveal.tsx:90-91 | the word pieces joined with spaces give the text, one more piece than spaces |
| TextReveal.LineItemsRoundTrip | components/ui/text-reveal.tsx:92-93 | the line pieces joined with newlines give the text, one more piece than newlines |
| TextReveal.Items | components/ui/text-reveal.tsx:86-96 | the pieces of the `switch` on `type`; what they are is stated by CharItemsRoundTrip, WordItemsRoundTrip and LineItemsRoundTrip |
| TextReveal.Rendered | components/ui/text-reveal.tsx:86-122 | the text of each animated span; stated by SpacerOnlyForWords, WordRevealReadsAsText and OtherRevealDropsSpaces |
| TextReveal.SpacerOnlyForWords | components/ui/text-reveal.tsx:122 | only the word reveal adds a spacer; other types render their pieces untouched |
| TextReveal.WordRevealReadsAsText | components/ui/text-reveal.tsx:90-122 | read as one string, a word reveal is the text with every space made non-breaking |
| TextReveal.OtherRevealDropsSpaces | components/ui/text-reveal.tsx:94-122 | an unknown type cuts like words but, read as one string, loses every space |
| Navigation.ActiveIffSegmentPrefix | components/layout/nav.tsx:17-19 | an entry is active exactly when its href is a whole-segment prefix of the path |
| Navigation.IsActive | components/layout/nav.tsx:17-19 | the section rule, also used at components/layout/floating-nav.tsx:101; its meaning is stated by ActiveIffSegmentPrefix and WorkNotActiveOnWorkshop |
| Navigation.ExactImpliesActive | components/layout/nav.tsx:48 | the exact rule used for submenu links implies the section rule |
| Navigation.IsExactlyActive | components/layout/nav.tsx:48 | the exact rule for submenu links, also used at components/layout/floating-nav.tsx:243; related to the section rule by ExactImpliesActive and DesktopAndOverlayDiffer |
| Navigation.WorkNotActiveOnWorkshop | components/layout/nav.tsx:17-19 | "/work" is active on its own pages but not on "/workshop" |
| Navigation.MainNavigationShape | lib/constants/navigation.ts:1-24 | top-level titles and hrefs are distinct, only "Services" has a submenu, and every submenu page lies inside that section |
| Nav.RunKeepsInv | components/layout/nav.tsx:21-40 | over any hover sequence the open dropdown is either none or the title of an entry with a submenu |
| Nav.Step | components/layout/nav.tsx:20-27 | entries without a submenu leave the dropdown as it is; entering an entry with a submenu opens exactly its dropdown, under its title, and leaving it closes every dropdown |
| Nav.AtMostOneDropdown | components/layout/nav.tsx:40 | no two entries show their dropdown at once |
| MobileNav.ToggleTwice | components/layout/mobile-nav.tsx:17-19 | toggling a submenu twice closes it, unless it started open, when it is open again |
| MobileNav.ToggleOnlyTouchesTitle | components/layout/mobile-nav.tsx:17-19 | a toggle leaves at most the toggled submenu open, and opens it exactly when it was not open |
| MobileNav.Toggle | components/layout/mobile-nav.tsx:17-19 | `toggleSubmenu` through the shared `Js.ToggleOption`; stated by ToggleTwice and ToggleOnlyTouchesTitle |
| MobileNav.Step | components/layout/mobile-nav.tsx:24-113 | the menu button flips the menu and link clicks close it, neither touching the submenu; a submenu toggle leaves the menu open state alone |
| MobileNav.MenuButtonAndLinks | components/layout/mobile-nav.tsx:24-113 | the menu button flips the menu; every link click closes it and leaves the submenu as it was |
| FloatingNav.Initial | components/layout/floating-nav.tsx:22-40 | on mount the body scroll lock agrees with the closed menu |
| FloatingNav.Handle | components/layout/floating-nav.tsx:92-289 | a handler never writes the scroll lock; only a route change moves the pathname; hover events and route changes leave the menu alone; only hover events change the dropdown, and a newly opened one is the hovered entry's href, for an entry with a submenu |
| FloatingNav.Step | components/layout/floating-nav.tsx:26-289 | after every event the scroll lock matches the menu state. A route change sets the new pathname and closes the menu, and no other event changes the pathname. Hovering opens only submenu entries and leaving clears the dropdown. The toggle flips the menu and overlay links close it. Hover events leave the menu alone, and all other events leave the dropdown alone |
| FloatingNav.Unmount | components/layout/floating-nav.tsx:37-39 | unmounting always releases the scroll lock |
| FloatingNav.DropdownOnlyForSubmenus | components/layout/floating-nav.tsx:92-93 | over any event sequence, the open dropdown stays the href of an entry with a submenu; in the main navigation that is only Services |
| FloatingNav.DesktopAndOverlayDiffer | components/layout/floating-nav.tsx:101-243 | on a service page the desktop header highlights Services but the overlay, which matches exactly, does not |
| ServiceFaq.InitiallyFirstOpen | components/services/service-faq.tsx:21 | initially only the first answer is shown |
| ServiceFaq.ClickOpensOnlyClicked | components/services/service-faq.tsx:39 | a click shows at most the clicked answer, flipping whether it is shown |
| ServiceFaq.Click | components/services/service-faq.tsx:39 | the click handler through the shared `Js.ToggleOption`; stated by ClickOpensOnlyClicked, ClickTwice and AtMostOneShown |
| Js.ToggleOption | components/services/service-faq.tsx:39 | `prev === x ? null : x`, also at components/layout/mobile-nav.tsx:18 and components/work/project-filter.tsx:41-46: the result is no choice exactly when `x` was the current one, and otherwise is `x` |
| ServiceFaq.ClickTwice | components/services/service-faq.tsx:39 | clicking an entry twice closes it, unless it started open, when it is open again |
| ServiceFaq.AtMostOneShown | components/services/service-faq.tsx:53 | at most one answer is shown at a time |
| ProjectFilter.SelectionsIndependent | components/work/project-filter.tsx:41-74 | an industry chip's effect does not depend on the service selection, and the other way round |
| ProjectFilter.ChipTwiceRestoresNothingSelected | components/work/project-filter.tsx:41-46 | pressing an unselected chip twice ends with nothing selected |
| ProjectFilter.ClearNeedsASelection | components/work/project-filter.tsx:27-89 | Clear is offered exactly when some selection is a non-empty slug |
| ProjectFilter.ShowClear | components/work/project-filter.tsx:27 | `hasFilters`; when it holds is stated by ClearNeedsASelection |
| ProjectFilter.ChipRule | components/work/project-filter.tsx:41-74 | a chip reports no selection exactly when its slug is the selected one, and its own slug otherwise |
| ProjectFilter.ChipValue | components/work/project-filter.tsx:41-46 | the chip rule through the shared `Js.ToggleOption`; stated by ChipRule and ChipTwiceRestoresNothingSelected |
| ProjectFilter.Press | components/work/project-filter.tsx:40-93 | what each visible button reports to the parent; stated by ChipRule and SelectionsIndependent |
| ProjectFilter.DividerNeedsBothLists | components/work/project-filter.tsx:60 | the divider is drawn exactly when both chip rows have a chip |
| ProjectFilter.ShowDivider | components/work/project-filter.tsx:60 | the divider guard; stated by DividerNeedsBothLists |
| ThemeProvider.Initial | components/providers/theme-provider.tsx:36-39 | before mounting the provider holds the default theme and has not written anything |
| ThemeProvider.Parse | components/providers/theme-provider.tsx:42-48 | only the stored strings "dark" and "light" are recognised as themes |
| ThemeProvider.Mount | components/providers/theme-provider.tsx:42-64 | on mount a recognised stored theme is adopted and anything else keeps the default; storage and the root class then agree with the theme |
| ThemeProvider.Persist | components/providers/theme-provider.tsx:51-64 | the persisting effect keeps the theme; before mount it changes nothing, after mount storage and the root class agree with the theme |
| ThemeProvider.Toggled | components/providers/theme-provider.tsx:70-72 | toggling always changes the theme |
| ThemeProvider.ToggleTheme | components/providers/theme-provider.tsx:70-72 | the theme always changes; before mount storage and the root class stay as they were, after mount they follow the new theme |
| ThemeProvider.SetTheme | components/providers/theme-provider.tsx:66-68 | the theme becomes the given one; before mount storage and the root class stay as they were, after mount they follow it |
| ThemeProvider.ToggleTwice | components/providers/theme-provider.tsx:70-72 | two toggles restore the theme, and once mounted its stored name too |
| ThemeProvider.DefaultKept | components/providers/theme-provider.tsx:36-48 | with nothing recognisable stored, the default dark theme stays |
| ThemeProvider.NothingBeforeMount | components/providers/theme-provider.tsx:51-77 | before mounting nothing is rendered and nothing is written to storage or the root element |
| ThemeProvider.MountedStaysInSync | components/providers/theme-provider.tsx:51-72 | once mounted, storage and the root class follow every toggle and set |
| ThemeProvider.UseThemeNeedsProvider | components/providers/theme-provider.tsx:21-26 | outside a provider useTheme raises its error; inside one it yields the provider's theme |
| ThemeProvider.UseTheme | components/providers/theme-provider.tsx:21-26 | it raises exactly outside a provider, and inside one yields the provider's theme |
| Metadata.SiteUrl | lib/utils/metadata.ts:3 | a set, non-empty `NEXT_PUBLIC_SITE_URL` is the site url; otherwise the fixed default; never empty |
| Metadata.FullTitle | lib/utils/metadata.ts:17 | a given title is followed by a vertical bar and the site name; no title or an empty one gives the site name alone |
| Metadata.CardsAgree | lib/utils/metadata.ts:20-37 | the Open Graph and Twitter cards repeat the page title and description, and the description is never empty |
| Metadata.Defaults | lib/utils/metadata.ts:5-27 | with no path the shared url is the site url; with no title or description the site name and the default description are used, and an empty one counts as absent |
| Metadata.SharedLinks | lib/utils/metadata.ts:27-33 | the shared url is the site url string followed by the path; an image is shared alone, and without one none is |
| Metadata.CreateMetadata | lib/utils/metadata.ts:5-38 | the page title is the full title built from the page's own title; a given, non-empty description is used and otherwise the default one; the metadata base is the site url. The cards and links are stated by CardsAgree, Defaults and SharedLinks |

## Left out

- The JSX markup, CSS classes, icons and framer-motion animations are not modelled. Only the state and the values that decide what is shown are.
- The HTML bodies of the two emails are not modelled beyond the values they interpolate. That includes the `toLowerCase()` of the project label in the confirmation, because the model has no case mapping.
- The email provider, its API key and the console logging are not modelled. The provider's answers are parameters.
- zod's email and URL format checks are uninterpreted parameters, because their exact grammar belongs to the library.
- `Date.now()`, `localStorage`, `document.body` and `document.documentElement` are not modelled as effects. They are state fields or parameters.
- `new URL(siteUrl)` is not modelled. `metadataBase` is kept as the site url string. So neither the throw on a malformed `NEXT_PUBLIC_SITE_URL` nor URL serialisation (which adds a trailing `/` to a bare origin) is modelled, and no contract relates the Open Graph url to `metadataBase`.
- `revalidateTag` is not modelled as an effect. The tags a request revalidates are returned instead.
- The reduced-motion variants, the scroll-position and viewport hooks, smooth scrolling and the footer navigation are left out, because they only change presentation.
- The CMS (Sanity) client, queries and schemas and the page components are left out. They only fetch and lay out content.
- BrowserMockup.TypedText: `Math.floor` over floating point is idealised as integer division of the elapsed time times the length by the window length. The two agree, except that floating-point rounding is not modelled.
- BrowserMockup.Interpolate: the cursor coordinates and the easing are real numbers, not IEEE doubles.
- BrowserMockup.Tick: `setInterval` timing jitter is not modelled. Every tick adds exactly 16 ms.
- ContactValidation.FailingFields: zod's error messages and their order are not modelled. Only which fields fail is.
- ContactRoute.Post: a request body that is not JSON and a body whose fields have the wrong JSON types are one `Malformed` case, because both throw into the same `catch`.
- ProjectFilter.SelectionsIndependent: the filter component is not used by any page in the repository. It is modelled through the values it emits, not through a parent's state.
- TextReveal.CharItemsRoundTrip: `split('')` is modelled as one piece per Unicode scalar value. JavaScript yields one piece per UTF-16 code unit, so a character outside the Basic Multilingual Plane is one piece here but two surrogate halves in the browser. Dafny has no UTF-16 code-unit strings to model the halves with.

=== FILE: browser_mockup.dfy ===
/** The scripted "request a home valuation" demo in the hero browser mockup.
    Every frame is a pure function of one integer clock `time` (milliseconds),
    which a 16 ms interval advances modulo the cycle length. Cursor easing and
    the fade ramp are modelled over `real`, an exact idealisation of the
    JavaScript numbers. */
module BrowserMockup {
  import opened Strings

  // The TIMELINE table, in milliseconds, in declaration order.
  const TotalDuration: int := 9000
  const FadeInEnd: int := 500
  const IdleEnd: int := 1000
  const CursorToCtaEnd: int := 1700
  const ButtonHoverEnd: int := 1900
  const ButtonClickEnd: int := 2100
  const ModalInEnd: int := 2500
  const CursorToAddressEnd: int := 3000
  const AddressFocusEnd: int := 3200
  const TypeAddressEnd: int := 4500
  const CursorToEmailEnd: int := 4800
  const EmailFocusEnd: int := 5000
  const TypeEmailEnd: int := 6000
  const CursorToSubmitEnd: int := 6300
  const SubmitHoverEnd: int := 6500
  const SubmitClickEnd: int := 6700
  const LoadingEnd: int := 7100
  const NotificationInEnd: int := 7500
  const SuccessHoldEnd: int := 8500
  const FadeOutStart: int := 8500

  /** The interval between two clock ticks. */
  const TickMs: int := 16

  /** The breakpoints after TOTAL_DURATION, in declaration order. */
  const Breakpoints: seq<int> := [
    FadeInEnd, IdleEnd, CursorToCtaEnd, ButtonHoverEnd, ButtonClickEnd,
    ModalInEnd, CursorToAddressEnd, AddressFocusEnd, TypeAddressEnd,
    CursorToEmailEnd, EmailFocusEnd, TypeEmailEnd, CursorToSubmitEnd,
    SubmitHoverEnd, SubmitClickEnd, LoadingEnd, NotificationInEnd,
    SuccessHoldEnd, FadeOutStart
  ]

  const AddressText: string := "123 Maple Street"
  const EmailText: string := "john@email.com"

  const BrowserWidth: int := 480
  const CharWidth: real := 7.2

  /** The table is ordered and lies inside one cycle. The order is not strict:
      the success hold ends exactly where the fade-out starts. */
  lemma BreakpointsOrdered()
    ensures forall i, j :: 0 <= i < j < |Breakpoints| ==> Breakpoints[i] <= Breakpoints[j]
    ensures forall i :: 0 <= i < |Breakpoints| ==> 0 < Breakpoints[i] < TotalDuration
    ensures SuccessHoldEnd == FadeOutStart
  {
  }

  // ---------------------------------------------------------------- clock

  /** JavaScript `a % b` for `b > 0`: the remainder takes the sign of `a`. */
  function JsRem(a: int, b: int): int
    requires b > 0
  {
    if a >= 0 then a % b else -((-a) % b)
  }

  /** One interval callback: `(t + 16) % TOTAL_DURATION`. */
  function Tick(t: int): (r: int)
    ensures 0 <= t ==> 0 <= r < TotalDuration
    ensures 0 <= t < TotalDuration - TickMs ==> r == t + TickMs
    ensures TotalDuration - TickMs <= t < TotalDuration ==> r == t + TickMs - TotalDuration
  {
    JsRem(t + TickMs, TotalDuration)
  }

  /** The clock after `n` ticks from its initial value 0. */
  function ClockAfter(n: nat): int
  {
    if n == 0 then 0 else Tick(ClockAfter(n - 1))
  }

  /** Every clock value lies in `[0, TOTAL_DURATION)` and is
      `16 * n` reduced modulo the cycle length. */
  lemma {:induction false} ClockClosedForm(n: nat)
    ensures 0 <= ClockAfter(n) < TotalDuration
    ensures ClockAfter(n) == (TickMs * n) % TotalDuration
  {
    if n > 0 {
      ClockClosedForm(n - 1);
      var c := ClockAfter(n - 1);
      assert TickMs * n == TickMs * (n - 1) + TickMs;
      ModAddStep(TickMs * (n - 1), c);
    }
  }

  lemma ModAddStep(a: int, c: int)
    requires a >= 0
    requires c == a % TotalDuration
    ensures (c + TickMs) % TotalDuration == (a + TickMs) % TotalDuration
  {
    var q := a / TotalDuration;
    assert a == q * TotalDuration + c;
    ModShift(c + TickMs, q);
  }

  lemma ModShift(x: int, q: int)
    requires x >= 0 && q >= 0
    ensures (x + q * TotalDuration) % TotalDuration == x % TotalDuration
  {
    if q > 0 {
      ModShift(x, q - 1);
      assert x + q * TotalDuration == (x + (q - 1) * TotalDuration) + TotalDuration;
    }
  }

  /** Since 9000 is not a multiple of 16, the clock does not come back to 0
      when the first cycle ends: in the second cycle it runs 8 ms behind,
      taking the values 8, 24, ..., 8984. */
  lemma ClockSecondCycle(n: nat)
    requires 562 < n < 1125
    ensures ClockAfter(n) == TickMs * n - TotalDuration
    ensures ClockAfter(n) % TickMs == 8
  {
    ClockClosedForm(n);
  }

  /** The clock is back at 0 after every multiple of 1125 ticks (two cycles);
      with the two lemmas around it, it is 0 at no tick in between. */
  lemma ClockReturnsToZero(n: nat)
    requires n % 1125 == 0
    ensures ClockAfter(n) == 0
  {
    ClockClosedForm(n);
    var k := n / 1125;
    assert TickMs * n == 0 + (2 * k) * TotalDuration;
    ModShift(0, 2 * k);
  }

  /** During the first cycle the clock is exactly `16 * n`. */
  lemma ClockFirstCycle(n: nat)
    requires n <= 562
    ensures ClockAfter(n) == TickMs * n
  {
    ClockClosedForm(n);
  }

  lemma ClockPeriodic(n: nat)
    ensures ClockAfter(n + 1125) == ClockAfter(n)
  {
    ClockClosedForm(n);
    ClockClosedForm(n + 1125);
    assert TickMs * (n + 1125) == TickMs * n + 2 * TotalDuration;
    ModShift(TickMs * n, 2);
  }

  // ---------------------------------------------------------------- flags

  /** Half-open interval membership `a <= t < b`. */
  predicate Within(t: int, a: int, b: int)
  {
    a <= t < b
  }

  predicate ShowModal(t: int) { Within(t, ButtonClickEnd, FadeOutStart) }
  predicate ShowNotification(t: int) { Within(t, NotificationInEnd, FadeOutStart) }
  predicate IsCtaHovered(t: int) { Within(t, CursorToCtaEnd, ButtonClickEnd) }
  predicate IsCtaClicked(t: int) { Within(t, ButtonHoverEnd, ModalInEnd) }
  predicate IsAddressFocused(t: int) { Within(t, AddressFocusEnd, CursorToEmailEnd) }
  predicate IsEmailFocused(t: int) { Within(t, EmailFocusEnd, CursorToSubmitEnd) }
  predicate IsSubmitHovered(t: int) { Within(t, CursorToSubmitEnd, SubmitClickEnd) }
  predicate IsSubmitClicked(t: int) { Within(t, SubmitHoverEnd, LoadingEnd) }
  predicate IsLoading(t: int) { Within(t, SubmitClickEnd, NotificationInEnd) }

  /** The I-beam cursor: over the address input or over the email input. */
  predicate IsOverTextInput(t: int)
  {
    Within(t, CursorToAddressEnd, CursorToEmailEnd) || Within(t, CursorToEmailEnd, CursorToSubmitEnd)
  }

  // ------------------------------------------------------------ typed text

  /** `getTypedText`: nothing before the window, everything from its end on,
      and in between the prefix whose length grows linearly with the time
      spent in the window, rounded down to whole characters. */
  function TypedText(text: string, time: int, start: int, end: int): (r: string)
    ensures StartsWith(text, r)
    ensures time < start ==> r == ""
    ensures start <= time && end <= time ==> r == text
    ensures start <= time < end ==> |r| == (time - start) * |text| / (end - start)
  {
    if time < start then ""
    else if time >= end then text
    else
      var charCount := (time - start) * |text| / (end - start);
      ScaledBelow(time - start, end - start, |text|);
      text[..charCount]
  }

  /** `a * n / b <= n` and is non-negative when `0 <= a < b`. */
  lemma ScaledBelow(a: int, b: int, n: nat)
    requires 0 <= a < b
    ensures 0 <= a * n / b <= n
  {
    MulMonotone(a, b, n);
    assert b * n / b == n;
    DivMonotone(a * n, b * n, b);
  }

  lemma DivMonotone(x: int, y: int, d: int)
    requires 0 <= x <= y && d > 0
    ensures 0 <= x / d <= y / d
  {
    var qx, qy := x / d, y / d;
    assert qx * d <= x;
    assert y < (qy + 1) * d;
    if qx > qy {
      MulMonotone(qy + 1, qx, d);
      assert false;
    }
  }

  lemma MulMonotone(a: int, b: int, d: int)
    requires a <= b && d >= 0
    ensures a * d <= b * d
  {
    assert b * d - a * d == (b - a) * d;
  }

  /** For a fixed text and window, the typed prefix never gets shorter as
      time advances. */
  lemma TypedTextMonotone(text: string, t1: int, t2: int, start: int, end: int)
    requires t1 <= t2
    ensures |TypedText(text, t1, start, end)| <= |TypedText(text, t2, start, end)|
  {
    if start <= t1 && t2 < end {
      var n := |text|;
      MulMonotone(t1 - start, t2 - start, n);
      DivMonotone((t1 - start) * n, (t2 - start) * n, end - start);
    }
  }

  function AddressValue(t: int): string
  {
    TypedText(AddressText, t, AddressFocusEnd, TypeAddressEnd)
  }

  function EmailValue(t: int): string
  {
    TypedText(EmailText, t, EmailFocusEnd, TypeEmailEnd)
  }

  // ---------------------------------------------------------------- cursor

  datatype Point = Point(x: real, y: real)

  const Rest: Point := Point(BrowserWidth as real / 2.0 + 40.0, 320.0)
  const CtaButton: Point := Point(BrowserWidth as real / 2.0 + 40.0, 220.0)
  const AddressInput: Point := Point(125.0 + |AddressText| as real * CharWidth, 139.0)
  const EmailInput: Point := Point(130.0 + |EmailText| as real * CharWidth, 218.0)
  const SubmitButton: Point := Point(BrowserWidth as real / 2.0, 305.0)

  /** Cubic ease-out `1 - (1 - p)^3`. */
  function Ease(p: real): real
  {
    1.0 - (1.0 - p) * (1.0 - p) * (1.0 - p)
  }

  /** The eased progress stays in `[0, 1]` and never decreases. */
  lemma EaseInUnit(p: real, q: real)
    requires 0.0 <= p <= q <= 1.0
    ensures 0.0 <= Ease(p) <= Ease(q) <= 1.0
  {
    var a, b := 1.0 - p, 1.0 - q;
    assert 0.0 <= b <= a <= 1.0;
    MulNonneg(b, b);
    MulNonneg(b * b, b);
    MulNonneg(a - b, a + b);
    assert a * a - b * b == (a - b) * (a + b);
    MulNonneg(a * a - b * b, b);
    MulNonneg(a * a, a - b);
    assert a * a * a - b * b * b == (a * a - b * b) * b + a * a * (a - b);
    MulNonneg(1.0 - a, 1.0 + a);
    assert 1.0 - a * a == (1.0 - a) * (1.0 + a);
    MulNonneg(1.0 - a * a, a);
    assert 1.0 - a * a * a == (1.0 - a * a) * a + (1.0 - a);
  }

  lemma MulNonneg(x: real, y: real)
    requires x >= 0.0 && y >= 0.0
    ensures x * y >= 0.0
  {
  }

  /** `a` lies between `lo` and `hi`, in either order. */
  predicate Between(lo: real, a: real, hi: real)
  {
    (lo <= a <= hi) || (hi <= a <= lo)
  }

  /** `interpolatePosition`: the eased point on the segment from `from` to
      `to`. It starts at `from`, ends at `to` and, for progress in `[0, 1]`,
      stays inside the box the two points span. */
  function Interpolate(from: Point, to: Point, progress: real): (r: Point)
    ensures progress == 0.0 ==> r == from
    ensures progress == 1.0 ==> r == to
    ensures 0.0 <= progress <= 1.0 ==> Between(from.x, r.x, to.x) && Between(from.y, r.y, to.y)
  {
    var eased := Ease(progress);
    var r := Point(from.x + (to.x - from.x) * eased, from.y + (to.y - from.y) * eased);
    assert 0.0 <= progress <= 1.0 ==> Between(from.x, r.x, to.x) && Between(from.y, r.y, to.y) by {
      if 0.0 <= progress <= 1.0 {
        EaseInUnit(progress, progress);
        ScaleBetween(from.x, to.x, eased);
        ScaleBetween(from.y, to.y, eased);
      }
    }
    r
  }

  lemma ScaleBetween(a: real, b: real, e: real)
    requires 0.0 <= e <= 1.0
    ensures Between(a, a + (b - a) * e, b)
  {
    if a <= b {
      MulNonneg(b - a, e);
      MulNonneg(b - a, 1.0 - e);
      assert (b - a) - (b - a) * e == (b - a) * (1.0 - e);
    } else {
      MulNonneg(a - b, e);
      MulNonneg(a - b, 1.0 - e);
      assert (a - b) - (a - b) * e == (a - b) * (1.0 - e);
    }
  }

  /** Progress through the window `[a, b)`. */
  function Progress(t: int, a: int, b: int): real
    requires a < b
  {
    (t - a) as real / (b - a) as real
  }

  /** `getCursorPosition`: a descending cascade of thresholds, each phase
      either resting at an anchor or moving between two anchors. */
  function CursorAt(t: int): Point
  {
    if t < IdleEnd then Rest
    else if t < CursorToCtaEnd then Interpolate(Rest, CtaButton, Progress(t, IdleEnd, CursorToCtaEnd))
    else if t < ModalInEnd then CtaButton
    else if t < CursorToAddressEnd then Interpolate(CtaButton, AddressInput, Progress(t, ModalInEnd, CursorToAddressEnd))
    else if t < TypeAddressEnd then AddressInput
    else if t < CursorToEmailEnd then Interpolate(AddressInput, EmailInput, Progress(t, TypeAddressEnd, CursorToEmailEnd))
    else if t < TypeEmailEnd then EmailInput
    else if t < CursorToSubmitEnd then Interpolate(EmailInput, SubmitButton, Progress(t, TypeEmailEnd, CursorToSubmitEnd))
    else SubmitButton
  }

  /** One moving phase of the cursor path. */
  datatype Move = Move(start: int, end: int, from: Point, to: Point)

  /** The moving phases, in time order; the cursor rests between them. */
  const Moves: seq<Move> := [
    Move(IdleEnd, CursorToCtaEnd, Rest, CtaButton),
    Move(ModalInEnd, CursorToAddressEnd, CtaButton, AddressInput),
    Move(TypeAddressEnd, CursorToEmailEnd, AddressInput, EmailInput),
    Move(TypeEmailEnd, CursorToSubmitEnd, EmailInput, SubmitButton)
  ]

  /** The cursor path has no jump inside a cycle: each moving phase starts
      at the anchor the cursor rested on and its easing reaches, at the end
      of the window, the anchor the cursor rests on next. */
  lemma CursorPathContinuous(i: nat)
    requires i < |Moves|
    ensures Moves[i].start < Moves[i].end
    ensures forall t :: Moves[i].start <= t < Moves[i].end ==>
      CursorAt(t) == Interpolate(Moves[i].from, Moves[i].to, Progress(t, Moves[i].start, Moves[i].end))
    ensures CursorAt(Moves[i].start) == Moves[i].from
    ensures Interpolate(Moves[i].from, Moves[i].to,
      Progress(Moves[i].end, Moves[i].start, Moves[i].end)) == Moves[i].to
    ensures CursorAt(Moves[i].end) == Moves[i].to
    ensures i == 0 ==> forall t :: t < Moves[0].start ==> CursorAt(t) == Moves[0].from
    ensures 0 < i ==> Moves[i - 1].to == Moves[i].from
    ensures 0 < i ==> forall t :: Moves[i - 1].end <= t < Moves[i].start ==> CursorAt(t) == Moves[i].from
    ensures i == |Moves| - 1 ==> forall t :: Moves[i].end <= t ==> CursorAt(t) == Moves[i].to
  {
    var m := Moves[i];
    assert Progress(m.start, m.start, m.end) == 0.0;
    assert Progress(m.end, m.start, m.end) == 1.0;
  }

  // ------------------------------------------------------------------ fade

  /** `getFadeOpacity`: a linear ramp up over the first 500 ms, full opacity,
      and a linear ramp down from FADE_OUT_START to the end of the cycle. */
  function FadeOpacity(t: int): real
  {
    if t < FadeInEnd then t as real / FadeInEnd as real
    else if t >= FadeOutStart then
      var fadeOutDuration := TotalDuration - FadeOutStart;
      1.0 - (t - FadeOutStart) as real / fadeOutDuration as real
    else 1.0
  }

  /** The frame is invisible at time 0, never leaves `[0, 1]` inside a cycle,
      and is fully opaque from the end of the fade-in to the fade-out. */
  lemma FadeBounds(t: int)
    ensures FadeOpacity(0) == 0.0
    ensures 0 <= t < TotalDuration ==> 0.0 <= FadeOpacity(t) <= 1.0
    ensures FadeInEnd <= t < FadeOutStart ==> FadeOpacity(t) == 1.0
  {
  }

  /** The two ramps mirror each other, so the end of one cycle looks like the
      start of the next. */
  lemma FadeSymmetric(d: int)
    requires 0 < d <= TotalDuration - FadeOutStart
    ensures FadeOpacity(TotalDuration - d) == FadeOpacity(d)
  {
  }

  /** The only discontinuity of the animation is the wrap of the clock, where
      the cursor jumps from the submit button back to its rest point; on both
      sides of that step the frame is almost fully transparent. */
  lemma WrapIsHiddenByFade(t: int)
    requires 0 <= t < TotalDuration
    requires Tick(t) < t
    ensures CursorAt(t) == SubmitButton && CursorAt(Tick(t)) == Rest
    ensures FadeOpacity(t) <= 16.0 / 500.0
    ensures FadeOpacity(Tick(t)) <= 16.0 / 500.0
  {
  }

  // ----------------------------------------------------------------- frame

  /** Everything one render of the mockup derives from the clock. */
  datatype Frame = Frame(
    showModal: bool,
    showNotification: bool,
    isCtaHovered: bool,
    isCtaClicked: bool,
    isAddressFocused: bool,
    isEmailFocused: bool,
    isSubmitHovered: bool,
    isSubmitClicked: bool,
    isLoading: bool,
    isOverTextInput: bool,
    addressValue: string,
    emailValue: string,
    cursor: Point,
    opacity: real)

  /** The frame at clock value `t`, with the relations the script keeps
      between its flags. */
  function FrameAt(t: int): (f: Frame)
    ensures f.showNotification ==> f.showModal
    ensures !(f.isAddressFocused && f.isEmailFocused)
    ensures !(f.isSubmitHovered && f.isLoading)
    ensures f.isOverTextInput <==> CursorToAddressEnd <= t < CursorToSubmitEnd
    ensures StartsWith(AddressText, f.addressValue) && StartsWith(EmailText, f.emailValue)
    ensures f.isAddressFocused ==> f.emailValue == ""
    ensures f.isEmailFocused ==> f.addressValue == AddressText
    ensures 0 <= t < TotalDuration ==> 0.0 <= f.opacity <= 1.0
  {
    FadeBounds(t);
    Frame(
      ShowModal(t), ShowNotification(t), IsCtaHovered(t), IsCtaClicked(t),
      IsAddressFocused(t), IsEmailFocused(t), IsSubmitHovered(t),
      IsSubmitClicked(t), IsLoading(t), IsOverTextInput(t),
      AddressValue(t), EmailValue(t), CursorAt(t), FadeOpacity(t))
  }
}

=== FILE: contact_form.dfy ===
/** The client side of the lead pipeline (`ContactForm`): schema validation
    before submit, the 3-second spam gate, the single in-flight request, the
    success/error states and the project-driver checkboxes. The clock and the
    network are parameters: the time elapsed since mount and the outcome of
    the `fetch` call. */
module ContactForm {
  import opened Js
  import opened Seqs
  import opened Strings
  import opened ContactValidation
  import ContactRoute

  datatype SubmitStatus = Idle | Success | Error

  /** What the success view shows. */
  datatype SuccessData = SuccessData(firstName: string, projectType: string)

  /** The component state plus the form library's field values (`draft`) and
      its `isSubmitted` flag. */
  datatype FormState = FormState(
    isSubmitting: bool,
    status: SubmitStatus,
    successData: Option<SuccessData>,
    draft: Lead,
    submitted: bool)

  /** What `fetch('/api/contact')` produced: a response (with `response.ok`)
      or a rejection. */
  datatype FetchResult = Responded(ok: bool) | NetworkFailure

  /** One press of the submit button: the state while the request is pending
      (if one was issued), the state afterwards, and the body sent. */
  datatype Attempt = Attempt(pending: Option<FormState>, final: FormState, request: Option<Lead>)

  const SpamGateMs := 3000

  /** The field values after `reset()`: everything empty, no drivers. */
  const EmptyDraft := Lead("", "", None, "", "", "", "", "", None, [], "", "", "", None, None, None)

  const Initial := FormState(false, Idle, None, EmptyDraft, false)

  /** `response.ok`: a status in the 2xx range. */
  function FetchOf(response: ContactRoute.Response): FetchResult
  {
    Responded(200 <= response.status <= 299)
  }

  /** `onSubmit(data)`, run with `elapsedMs` since mount. */
  function OnSubmit(s: FormState, data: Lead, elapsedMs: int, fetch: FetchResult): (a: Attempt)
    ensures elapsedMs < SpamGateMs ==>
      a.request == None && a.pending == None && a.final == s.(status := Error)
    ensures elapsedMs >= SpamGateMs ==>
      && a.request == Some(data)
      && a.pending == Some(s.(isSubmitting := true, status := Idle))
      && !a.final.isSubmitting
    ensures elapsedMs >= SpamGateMs && fetch == Responded(true) ==>
      && a.final.status == Success
      && a.final.successData == Some(SuccessData(ContactRoute.FirstName(data.fullName),
                                                 LabelFromValue(ProjectTypeOptions, data.projectType)))
      && a.final.draft == EmptyDraft
    ensures elapsedMs >= SpamGateMs && fetch != Responded(true) ==>
      a.final == s.(isSubmitting := false, status := Error)
  {
    if elapsedMs < SpamGateMs then Attempt(None, s.(status := Error), None)
    else
      var pending := s.(isSubmitting := true, status := Idle);
      var final :=
        if fetch == Responded(true) then
          var success := SuccessData(ContactRoute.FirstName(data.fullName),
                                     LabelFromValue(ProjectTypeOptions, data.projectType));
          pending.(successData := Some(success), status := Success,
                   draft := EmptyDraft, submitted := false, isSubmitting := false)
        else pending.(status := Error, isSubmitting := false);
      Attempt(Some(pending), final, Some(data))
  }

  /** `handleSubmit(onSubmit)`: the schema runs first; `onSubmit` only sees a
      draft that passes it. */
  function HandleSubmit(s: FormState, checks: FormatChecks, elapsedMs: int, fetch: FetchResult): (a: Attempt)
    ensures a.request.Some? ==> a.request.value == s.draft && IsValid(a.request.value, checks)
  {
    var s' := s.(submitted := true);
    if IsValid(s.draft, checks) then OnSubmit(s', s.draft, elapsedMs, fetch)
    else Attempt(None, s', None)
  }

  /** The success view replaces the form exactly when the status is success
      and there is success data. */
  predicate ShowSuccessView(s: FormState)
  {
    s.status == Success && s.successData.Some?
  }

  predicate ShowErrorBanner(s: FormState)
  {
    s.status == Error
  }

  /** The summary of failing fields, shown after a submit while errors remain. */
  predicate ShowErrorSummary(s: FormState, checks: FormatChecks)
  {
    s.submitted && FailingFields(s.draft, checks) != []
  }

  /** The fields the summary box has a line for, in its order; phone, the
      website URL, notes, referral source and the honeypot have none. */
  const SummaryFields: seq<Field> := [
    FullName, Email, CompanyName, Role, Industry, ProjectType,
    HasExistingWebsite, ProjectDrivers, Timeline, Budget, ProjectDescription
  ]

  /** The lines of the summary box: the failing fields it has a line for. */
  function SummaryLines(s: FormState, checks: FormatChecks): (r: seq<Field>)
    ensures forall i :: 0 <= i < |r| ==> r[i] in SummaryFields && !FieldOk(s.draft, checks, r[i])
    ensures forall i :: 0 <= i < |SummaryFields| && !FieldOk(s.draft, checks, SummaryFields[i]) ==>
      SummaryFields[i] in r
  {
    FailingAmong(s.draft, checks, SummaryFields)
  }

  predicate SubmitDisabled(s: FormState)
  {
    s.isSubmitting
  }

  predicate ShowUrlField(s: FormState)
  {
    s.draft.hasExistingWebsite == "yes"
  }

  /** A submission inside the first 3000 ms is rejected even when every field
      is valid: no request, status error, `isSubmitting` untouched. */
  lemma TooFastIsRejected(s: FormState, checks: FormatChecks, elapsedMs: int, fetch: FetchResult)
    requires IsValid(s.draft, checks) && elapsedMs < SpamGateMs
    ensures HandleSubmit(s, checks, elapsedMs, fetch).request == None
    ensures ShowErrorBanner(HandleSubmit(s, checks, elapsedMs, fetch).final)
    ensures HandleSubmit(s, checks, elapsedMs, fetch).final.isSubmitting == s.isSubmitting
  {
  }

  /** A filled-in honeypot never leaves the browser, and the error summary
      box appears (without a line for the honeypot, see `HoneypotBoxIsEmpty`). */
  lemma HoneypotNeverSent(s: FormState, checks: FormatChecks, elapsedMs: int, fetch: FetchResult)
    requires Truthy(s.draft.honeypot)
    ensures HandleSubmit(s, checks, elapsedMs, fetch).request == None
    ensures ShowErrorSummary(HandleSubmit(s, checks, elapsedMs, fetch).final, checks)
  {
    HoneypotRejected(s.draft, checks);
  }

  /** A draft that fails the schema is never sent, and the summary appears. */
  lemma InvalidDraftNeverSent(s: FormState, checks: FormatChecks, elapsedMs: int, fetch: FetchResult)
    requires !IsValid(s.draft, checks)
    ensures HandleSubmit(s, checks, elapsedMs, fetch).request == None
    ensures ShowErrorSummary(HandleSubmit(s, checks, elapsedMs, fetch).final, checks)
  {
    ValidIffNoFailingField(s.draft, checks);
  }

  /** While the request is in flight the button is disabled and no message
      is shown; once it settles the button is enabled again. */
  lemma InFlightDisablesSubmit(s: FormState, checks: FormatChecks, elapsedMs: int, fetch: FetchResult)
    requires HandleSubmit(s, checks, elapsedMs, fetch).request.Some?
    ensures HandleSubmit(s, checks, elapsedMs, fetch).pending.Some?
    ensures SubmitDisabled(HandleSubmit(s, checks, elapsedMs, fetch).pending.value)
    ensures !ShowErrorBanner(HandleSubmit(s, checks, elapsedMs, fetch).pending.value)
    ensures !SubmitDisabled(HandleSubmit(s, checks, elapsedMs, fetch).final)
  {
  }

  /** After a request the success view shows exactly when the response was ok;
      otherwise the error banner shows. */
  lemma OutcomeFollowsResponse(s: FormState, checks: FormatChecks, elapsedMs: int, fetch: FetchResult)
    requires HandleSubmit(s, checks, elapsedMs, fetch).request.Some?
    ensures ShowSuccessView(HandleSubmit(s, checks, elapsedMs, fetch).final) <==> fetch == Responded(true)
    ensures ShowErrorBanner(HandleSubmit(s, checks, elapsedMs, fetch).final) <==> fetch != Responded(true)
  {
  }

  /** The first name of `<a> <b>` is `a` when `a` has no space. */
  lemma {:induction false} FirstNameOfTwoWords(a: string, b: string)
    requires ' ' !in a
    ensures ContactRoute.FirstName(a + " " + b) == a
  {
    var s := a + " " + b;
    var r := ContactRoute.FirstName(s);
    assert s[|a|] == ' ';
    assert |r| == |a|;
    assert r == s[..|a|];
    assert s[..|a|] == a;
  }

  /** An end-to-end submission: a valid "Jane Doe" lead sent
      5000 ms after mount, with both emails delivered, is answered 200 and
      the success view greets "Jane" about a "New Website". */
  lemma JaneDoeExample(checks: FormatChecks, description: string, env: ContactRoute.Env)
    requires checks.isEmail("jane@x.com") && |description| >= 50
    ensures
      var lead := Lead("Jane Doe", "jane@x.com", None, "Acme", "founder-owner",
        "retail-ecommerce", "new-website", "no", None, ["outdated"], "1-2-months",
        "3k-7.5k", description, None, None, None);
      var server := ContactRoute.Post(ContactRoute.Json(lead), env, checks,
                                      ContactRoute.Sent, ContactRoute.Sent);
      var a := HandleSubmit(Initial.(draft := lead), checks, 5000, FetchOf(server.response));
      && server.response == ContactRoute.Ok
      && a.request == Some(lead)
      && ShowSuccessView(a.final)
      && a.final.successData == Some(SuccessData("Jane", "New Website"))
  {
    var lead := Lead("Jane Doe", "jane@x.com", None, "Acme", "founder-owner",
      "retail-ecommerce", "new-website", "no", None, ["outdated"], "1-2-months",
      "3k-7.5k", description, None, None, None);
    assert IsValid(lead, checks);
    FirstNameOfTwoWords("Jane", "Doe");
    assert "Jane Doe" == "Jane" + " " + "Doe";
    ProjectTypeOptionsWellFormed();
    LookupHit(ProjectTypeOptions, 0);
  }

  // ------------------------------------------------------ driver checkboxes

  /** The checkbox handler: checking appends the code, unchecking removes
      every occurrence of it. */
  function ToggleDriver(drivers: seq<string>, code: string, checked: bool): (r: seq<string>)
    ensures checked ==> r == drivers + [code]
    ensures !checked ==> code !in r && IsSubsequence(r, drivers)
    ensures !checked ==> forall x :: x != code ==> Count(r, x) == Count(drivers, x)
  {
    if checked then drivers + [code]
    else
      var r := Filter((x: string) => x != code, drivers);
      FilterIsSubsequence((x: string) => x != code, drivers);
      assert forall x :: x != code ==> Count(r, x) == Count(drivers, x) by {
        forall x | x != code ensures Count(r, x) == Count(drivers, x) {
          FilterCount((y: string) => y != code, drivers, x);
        }
      }
      r
  }

  /** Checking a box that was clear and clearing it again restores the list. */
  lemma CheckThenUncheck(drivers: seq<string>, code: string)
    requires code !in drivers
    ensures ToggleDriver(ToggleDriver(drivers, code, true), code, false) == drivers
  {
    var keep := (x: string) => x != code;
    FilterConcat(keep, drivers, [code]);
    FilterKeepsAll(keep, drivers);
    assert Filter(keep, [code]) == [];
  }

  /** Checking adds exactly one occurrence of the code. */
  lemma CheckCountsOnce(drivers: seq<string>, code: string)
    ensures Count(ToggleDriver(drivers, code, true), code) == Count(drivers, code) + 1
  {
    CountConcat(drivers, [code], code);
  }

  /** The URL input is drawn only for the answer "yes". Hiding it does not
      drop a value already typed: that value is still checked by the URL
      rule, whatever the answer. */
  lemma UrlFieldOnlyForYes(s: FormState, checks: FormatChecks, answer: string)
    requires answer != ""
    ensures ShowUrlField(s) <==> s.draft.hasExistingWebsite == "yes"
    ensures answer != "yes" ==> !ShowUrlField(s.(draft := s.draft.(hasExistingWebsite := answer)))
    ensures FieldOk(s.draft, checks, CurrentWebsiteUrl) <==>
      FieldOk(s.draft.(hasExistingWebsite := answer), checks, CurrentWebsiteUrl)
  {
    UrlRuleIndependentOfExistingWebsite(s.draft, checks, answer);
  }

  /** A draft whose only fault is the honeypot shows the summary box after a
      submit, but the box lists nothing: no line names the honeypot. */
  lemma HoneypotBoxIsEmpty(s: FormState, checks: FormatChecks)
    requires s.submitted && Truthy(s.draft.honeypot)
    requires IsValid(s.draft.(honeypot := None), checks)
    ensures ShowErrorSummary(s, checks)
    ensures SummaryLines(s, checks) == []
  {
    HoneypotRejected(s.draft, checks);
    var r := SummaryLines(s, checks);
    if r != [] {
      ValidFieldOk(s.draft.(honeypot := None), checks, r[0]);
    }
  }
}

=== FILE: contact_route.dfy ===
/** `POST /api/contact`: re-validates the lead, resolves every code to its
    label, sends the operator notification and then the courtesy
    confirmation through the email provider, and answers `{ success: true }`
    or a generic 500. The provider's answers are parameters: each send either
    succeeds, returns an `error` object, or throws. */
module ContactRoute {
  import opened Js
  import opened Seqs
  import opened Strings
  import opened ContactValidation

  /** The request body as the handler sees it after `request.json()`. A body
      that is not JSON, or whose fields have the wrong JSON types, never
      becomes a `Lead`; both end in the handler's catch. */
  datatype RequestBody = Malformed | Json(lead: Lead)

  /** What `resend.emails.send` does with one message. */
  datatype SendResult = Sent | Refused | Threw

  /** The display labels the handler derives before sending. */
  datatype Labels = Labels(
    role: string,
    industry: string,
    projectType: string,
    existingWebsite: string,
    timeline: string,
    budget: string,
    referral: string,
    drivers: seq<string>)

  /** The variable content of the two email templates. */
  datatype Content =
    | Notification(lead: Lead, labels: Labels, phoneText: string,
                   websiteRow: Option<string>, notesSection: Option<string>)
    | Confirmation(greetingName: string, projectTypeLabel: string)

  datatype EmailMessage = EmailMessage(from: string, to: string, subject: string, content: Content)

  datatype ResponseBody = SuccessBody | ErrorBody(error: string)

  datatype Response = Response(status: int, body: ResponseBody)

  /** The response together with every message handed to the provider, in order. */
  datatype Outcome = Outcome(response: Response, attempted: seq<EmailMessage>)

  /** The environment the handler reads. */
  datatype Env = Env(contactEmail: Option<string>)

  const NotificationSender := "Clarity Digital <noreply@claritydigital.dev>"
  const ConfirmationSender := "Tanner at Clarity Digital <tanner@claritydigital.dev>"
  const FallbackRecipient := "tanner@claritydigital.dev"
  const ConfirmationSubject := "Got it! I'll be in touch soon."
  const FailureMessage := "Failed to send message"
  const NotSpecified := "Not specified"
  const NotProvided := "Not provided"

  /** Where the notification goes: `CONTACT_EMAIL`, or the fixed address when
      that is unset or empty. */
  function Recipient(env: Env): (r: string)
    ensures Truthy(env.contactEmail) ==> r == env.contactEmail.value
    ensures !Truthy(env.contactEmail) ==> r == FallbackRecipient
    ensures r != ""
  {
    OrElse(env.contactEmail, FallbackRecipient)
  }

  /** The referral label: looked up when a source is given, otherwise
      `'Not specified'`. */
  function ReferralLabel(source: Option<string>): (r: string)
    ensures !Truthy(source) ==> r == NotSpecified
    ensures Truthy(source) ==> r == LabelFromValue(ReferralSourceOptions, source.value)
  {
    if Truthy(source) then LabelFromValue(ReferralSourceOptions, source.value) else NotSpecified
  }

  /** The labels of the chosen project drivers, one per code, in order. */
  function DriverLabels(drivers: seq<string>): (r: seq<string>)
    ensures |r| == |drivers|
    ensures forall i :: 0 <= i < |drivers| ==> r[i] == LabelFromValue(ProjectDriverOptions, drivers[i])
  {
    Map((d: string) => LabelFromValue(ProjectDriverOptions, d), drivers)
  }

  /** Each driver code resolves to its table label. */
  lemma DriversResolve(drivers: seq<string>)
    ensures forall k :: 0 <= k < |drivers| ==>
      ResolvesIn(ProjectDriverOptions, drivers[k], LabelFromValue(ProjectDriverOptions, drivers[k]))
  {
    ProjectDriverOptionsWellFormed();
    forall k | 0 <= k < |drivers|
      ensures ResolvesIn(ProjectDriverOptions, drivers[k], LabelFromValue(ProjectDriverOptions, drivers[k]))
    {
      LookupResolves(ProjectDriverOptions, drivers[k]);
    }
  }

  /** Each select answer resolves to its table label. */
  lemma SelectsResolve(lead: Lead)
    ensures ResolvesIn(RoleOptions, lead.role, LabelFromValue(RoleOptions, lead.role))
    ensures ResolvesIn(IndustryOptions, lead.industry, LabelFromValue(IndustryOptions, lead.industry))
    ensures ResolvesIn(ProjectTypeOptions, lead.projectType, LabelFromValue(ProjectTypeOptions, lead.projectType))
    ensures ResolvesIn(ExistingWebsiteOptions, lead.hasExistingWebsite,
      LabelFromValue(ExistingWebsiteOptions, lead.hasExistingWebsite))
    ensures ResolvesIn(TimelineOptions, lead.timeline, LabelFromValue(TimelineOptions, lead.timeline))
    ensures ResolvesIn(BudgetOptions, lead.budget, LabelFromValue(BudgetOptions, lead.budget))
    ensures Truthy(lead.referralSource) ==> ResolvesIn(ReferralSourceOptions, lead.referralSource.value,
      LabelFromValue(ReferralSourceOptions, lead.referralSource.value))
  {
    RoleOptionsWellFormed();
    LookupResolves(RoleOptions, lead.role);
    IndustryOptionsWellFormed();
    LookupResolves(IndustryOptions, lead.industry);
    ProjectTypeOptionsWellFormed();
    LookupResolves(ProjectTypeOptions, lead.projectType);
    ExistingWebsiteOptionsWellFormed();
    LookupResolves(ExistingWebsiteOptions, lead.hasExistingWebsite);
    TimelineOptionsWellFormed();
    LookupResolves(TimelineOptions, lead.timeline);
    BudgetOptionsWellFormed();
    LookupResolves(BudgetOptions, lead.budget);
    if Truthy(lead.referralSource) {
      ReferralSourceOptionsWellFormed();
      LookupResolves(ReferralSourceOptions, lead.referralSource.value);
    }
  }

  /** Every select answer of the lead is shown as its table label, an
      unknown code as itself; the referral reads "Not specified" when absent
      and the drivers keep their order. */
  function DeriveLabels(lead: Lead): (l: Labels)
    ensures ResolvesIn(RoleOptions, lead.role, l.role)
    ensures ResolvesIn(IndustryOptions, lead.industry, l.industry)
    ensures ResolvesIn(ProjectTypeOptions, lead.projectType, l.projectType)
    ensures ResolvesIn(ExistingWebsiteOptions, lead.hasExistingWebsite, l.existingWebsite)
    ensures ResolvesIn(TimelineOptions, lead.timeline, l.timeline)
    ensures ResolvesIn(BudgetOptions, lead.budget, l.budget)
    ensures Truthy(lead.referralSource) ==>
      ResolvesIn(ReferralSourceOptions, lead.referralSource.value, l.referral)
    ensures !Truthy(lead.referralSource) ==> l.referral == NotSpecified
    ensures |l.drivers| == |lead.projectDrivers|
    ensures forall k :: 0 <= k < |lead.projectDrivers| ==>
      ResolvesIn(ProjectDriverOptions, lead.projectDrivers[k], l.drivers[k])
  {
    SelectsResolve(lead);
    DriversResolve(lead.projectDrivers);
    Labels(
      LabelFromValue(RoleOptions, lead.role),
      LabelFromValue(IndustryOptions, lead.industry),
      LabelFromValue(ProjectTypeOptions, lead.projectType),
      LabelFromValue(ExistingWebsiteOptions, lead.hasExistingWebsite),
      LabelFromValue(TimelineOptions, lead.timeline),
      LabelFromValue(BudgetOptions, lead.budget),
      ReferralLabel(lead.referralSource),
      DriverLabels(lead.projectDrivers))
  }

  /** A known project-type code resolves to its table label, and a known
      driver code contributes its label to the driver list. */
  lemma KnownCodesResolve(lead: Lead, i: nat, k: nat)
    requires i < |ProjectTypeOptions| && lead.projectType == ProjectTypeOptions[i].value
    requires k < |ProjectDriverOptions| && ProjectDriverOptions[k].value in lead.projectDrivers
    ensures DeriveLabels(lead).projectType == ProjectTypeOptions[i].labelText
    ensures ProjectDriverOptions[k].labelText in DeriveLabels(lead).drivers
  {
    ProjectTypeOptionsWellFormed();
    ProjectDriverOptionsWellFormed();
    LookupHit(ProjectTypeOptions, i);
    LookupHit(ProjectDriverOptions, k);
    var j :| 0 <= j < |lead.projectDrivers| && lead.projectDrivers[j] == ProjectDriverOptions[k].value;
    assert DeriveLabels(lead).drivers[j] == ProjectDriverOptions[k].labelText;
  }

  /** `fullName.split(' ')[0]`: the part of the name before its first space,
      or the whole name when it has none. */
  function FirstName(fullName: string): (r: string)
    ensures StartsWith(fullName, r)
    ensures ' ' !in r
    ensures |r| < |fullName| ==> fullName[|r|] == ' '
  {
    SplitOnCharHead(fullName, ' ');
    SplitOn(fullName, " ")[0]
  }

  /** The notification subject, `New Lead: <company> - <project type label>`. */
  function NotificationSubject(companyName: string, projectTypeLabel: string): (r: string)
    ensures |r| == 13 + |companyName| + |projectTypeLabel|
    ensures StartsWith(r, "New Lead: ")
    ensures r[10..10 + |companyName|] == companyName
    ensures r[10 + |companyName|..] == " - " + projectTypeLabel
  {
    "New Lead: " + companyName + " - " + projectTypeLabel
  }

  /** The operator notification for a validated lead. */
  function NotificationFor(lead: Lead, env: Env): EmailMessage
  {
    var labels := DeriveLabels(lead);
    EmailMessage(NotificationSender, Recipient(env),
      NotificationSubject(lead.companyName, labels.projectType),
      Notification(lead, labels, OrElse(lead.phone, NotProvided),
        if Truthy(lead.currentWebsiteUrl) then lead.currentWebsiteUrl else None,
        if Truthy(lead.additionalNotes) then lead.additionalNotes else None))
  }

  /** The confirmation to the submitter. */
  function ConfirmationFor(lead: Lead): EmailMessage
  {
    EmailMessage(ConfirmationSender, lead.email, ConfirmationSubject,
      Confirmation(FirstName(lead.fullName), DeriveLabels(lead).projectType))
  }

  const Ok := Response(200, SuccessBody)
  const Failure := Response(500, ErrorBody(FailureMessage))

  /** The handler. `notify` and `confirm` are the provider's answers to the
      two sends, in that order. */
  function Post(body: RequestBody, env: Env, checks: FormatChecks,
                notify: SendResult, confirm: SendResult): (o: Outcome)
    ensures o.response == Ok || o.response == Failure
    ensures o.response == Ok <==>
      body.Json? && IsValid(body.lead, checks) && notify == Sent && confirm != Threw
    ensures o.attempted == [] <==> !(body.Json? && IsValid(body.lead, checks))
    ensures |o.attempted| <= 2
    ensures |o.attempted| >= 1 ==> o.attempted[0] == NotificationFor(body.lead, env)
    ensures |o.attempted| == 2 <==> |o.attempted| >= 1 && notify == Sent
    ensures |o.attempted| == 2 ==> o.attempted[1] == ConfirmationFor(body.lead)
  {
    if body.Malformed? || !IsValid(body.lead, checks) then Outcome(Failure, [])
    else
      var n := NotificationFor(body.lead, env);
      if notify != Sent then Outcome(Failure, [n])
      else
        var c := ConfirmationFor(body.lead);
        if confirm == Threw then Outcome(Failure, [n, c])
        else Outcome(Ok, [n, c])
  }

  /** A body that fails the schema is answered with the generic 500 and no
      message reaches the provider. */
  lemma InvalidBodySendsNothing(body: RequestBody, env: Env, checks: FormatChecks,
                                notify: SendResult, confirm: SendResult)
    requires body.Malformed? || !IsValid(body.lead, checks)
    ensures Post(body, env, checks, notify, confirm) == Outcome(Failure, [])
  {
  }

  /** A failed notification is fatal and the confirmation is never attempted,
      whatever the provider would have done with it. */
  lemma NotificationIsAuthoritative(lead: Lead, env: Env, checks: FormatChecks,
                                    notify: SendResult, confirm: SendResult)
    requires IsValid(lead, checks) && notify != Sent
    ensures Post(Json(lead), env, checks, notify, confirm).response == Failure
    ensures Post(Json(lead), env, checks, notify, confirm).attempted == [NotificationFor(lead, env)]
  {
  }

  /** A confirmation the provider refuses is only logged: the lead still gets
      `{ success: true }`, as it does when both sends succeed. */
  lemma ConfirmationIsBestEffort(lead: Lead, env: Env, checks: FormatChecks, confirm: SendResult)
    requires IsValid(lead, checks) && confirm != Threw
    ensures Post(Json(lead), env, checks, Sent, confirm).response == Ok
    ensures Post(Json(lead), env, checks, Sent, confirm).attempted
      == [NotificationFor(lead, env), ConfirmationFor(lead)]
  {
  }

  /** The outcome never depends on the confirmation unless the notification
      went out. */
  lemma ConfirmationIrrelevantBeforeNotification(body: RequestBody, env: Env, checks: FormatChecks,
                                                 notify: SendResult, c1: SendResult, c2: SendResult)
    requires notify != Sent
    ensures Post(body, env, checks, notify, c1) == Post(body, env, checks, notify, c2)
  {
  }

  /** How the two messages of an accepted lead are addressed and filled: the
      notification goes to the operator with the company and the project-type
      label in its subject and the optional fields shown only when present;
      the confirmation goes back to the submitter, greeting them by first
      name. */
  lemma MessagesAddressed(lead: Lead, env: Env, checks: FormatChecks, confirm: SendResult)
    requires IsValid(lead, checks)
    ensures var o := Post(Json(lead), env, checks, Sent, confirm);
      && |o.attempted| == 2
      && o.attempted[0].from == NotificationSender
      && o.attempted[0].to == Recipient(env)
      && o.attempted[0].subject ==
           NotificationSubject(lead.companyName, LabelFromValue(ProjectTypeOptions, lead.projectType))
      && o.attempted[0].content.Notification?
      && o.attempted[0].content.lead == lead
      && (!Truthy(lead.phone) ==> o.attempted[0].content.phoneText == NotProvided)
      && (o.attempted[0].content.websiteRow.Some? <==> Truthy(lead.currentWebsiteUrl))
      && (o.attempted[0].content.notesSection.Some? <==> Truthy(lead.additionalNotes))
      && o.attempted[1].from == ConfirmationSender
      && o.attempted[1].to == lead.email
      && o.attempted[1].subject == ConfirmationSubject
      && o.attempted[1].content ==
           Confirmation(FirstName(lead.fullName), LabelFromValue(ProjectTypeOptions, lead.projectType))
  {
  }
}

=== FILE: contact_validation.dfy ===
/** The lead-form schema (`contactSchema`), the fixed option tables of the
    form's selects and the value-to-label lookup shared by the form and the
    contact API. The zod `email` and `url` format checks are not modelled:
    they are passed in as uninterpreted predicates. */
module ContactValidation {
  import opened Js
  import opened Seqs
  import opened Strings

  /** One `{ value, label }` entry of an option table. */
  datatype SelectOption = SelectOption(value: string, labelText: string)

  const RoleOptions: seq<SelectOption> := [
    SelectOption("founder-owner", "Founder / Owner"),
    SelectOption("ceo-executive", "CEO / Executive"),
    SelectOption("marketing-director", "Marketing Director / Manager"),
    SelectOption("operations-manager", "Operations Manager"),
    SelectOption("project-manager", "Project Manager"),
    SelectOption("other", "Other")
  ]

  const IndustryOptions: seq<SelectOption> := [
    SelectOption("real-estate", "Real Estate / Property"),
    SelectOption("professional-services", "Professional Services (Legal, Accounting, Consulting)"),
    SelectOption("healthcare", "Healthcare / Medical"),
    SelectOption("retail-ecommerce", "Retail / E-Commerce"),
    SelectOption("food-hospitality", "Food & Beverage / Hospitality"),
    SelectOption("automotive", "Automotive"),
    SelectOption("construction", "Construction / Trades"),
    SelectOption("fitness-wellness", "Fitness / Wellness"),
    SelectOption("technology", "Technology / Software"),
    SelectOption("finance-insurance", "Finance / Insurance"),
    SelectOption("education", "Education"),
    SelectOption("nonprofit", "Nonprofit"),
    SelectOption("creative-agency", "Creative / Agency"),
    SelectOption("other", "Other")
  ]

  const ProjectTypeOptions: seq<SelectOption> := [
    SelectOption("new-website", "New Website"),
    SelectOption("website-redesign", "Website Redesign"),
    SelectOption("web-application", "Web Application / Portal"),
    SelectOption("saas-product", "SaaS Product"),
    SelectOption("ecommerce", "E-Commerce Store"),
    SelectOption("landing-page", "Landing Page / Campaign Site"),
    SelectOption("seo-marketing", "SEO / Marketing Only"),
    SelectOption("not-sure", "Not Sure Yet")
  ]

  const ExistingWebsiteOptions: seq<SelectOption> := [
    SelectOption("yes", "Yes"),
    SelectOption("no", "No"),
    SelectOption("yes-starting-fresh", "Yes, but starting fresh")
  ]

  const ProjectDriverOptions: seq<SelectOption> := [
    SelectOption("outdated", "Current site is outdated"),
    SelectOption("not-generating-leads", "Not generating leads or sales"),
    SelectOption("difficult-to-manage", "Difficult to update or manage"),
    SelectOption("poor-mobile", "Poor mobile experience"),
    SelectOption("new-business", "Launching a new business"),
    SelectOption("new-product", "Launching a new product or service"),
    SelectOption("rebranding", "Rebranding"),
    SelectOption("competitor-better", "Competitor has better site"),
    SelectOption("need-functionality", "Need specific functionality we do not have"),
    SelectOption("seo-issues", "SEO / search visibility issues"),
    SelectOption("other", "Other")
  ]

  const TimelineOptions: seq<SelectOption> := [
    SelectOption("asap", "ASAP (within 2-4 weeks)"),
    SelectOption("1-2-months", "1-2 months"),
    SelectOption("3-6-months", "3-6 months"),
    SelectOption("no-rush", "No rush, just exploring"),
    SelectOption("depends", "Depends on the right fit")
  ]

  const BudgetOptions: seq<SelectOption> := [
    SelectOption("under-3k", "Under $3,000"),
    SelectOption("3k-7.5k", "$3,000 - $7,500"),
    SelectOption("7.5k-15k", "$7,500 - $15,000"),
    SelectOption("15k-30k", "$15,000 - $30,000"),
    SelectOption("30k-plus", "$30,000+"),
    SelectOption("not-sure", "Not sure yet")
  ]

  const ReferralSourceOptions: seq<SelectOption> := [
    SelectOption("google", "Google Search"),
    SelectOption("referral", "Referral from someone"),
    SelectOption("social-media", "Social Media"),
    SelectOption("portfolio", "Saw your work (portfolio)"),
    SelectOption("other", "Other")
  ]

  /** No two entries share a value and every label is non-empty. */
  predicate WellFormedTable(options: seq<SelectOption>)
  {
    && (forall i, j :: 0 <= i < j < |options| ==> options[i].value != options[j].value)
    && (forall i :: 0 <= i < |options| ==> options[i].labelText != "")
  }

  /** Some entry of the table carries `value`. */
  predicate HasValue(options: seq<SelectOption>, value: string)
  {
    exists i :: 0 <= i < |options| && options[i].value == value
  }

  lemma RoleOptionsWellFormed() ensures WellFormedTable(RoleOptions) {}
  lemma IndustryOptionsWellFormed() ensures WellFormedTable(IndustryOptions) {}
  lemma ProjectTypeOptionsWellFormed() ensures WellFormedTable(ProjectTypeOptions) {}
  lemma ExistingWebsiteOptionsWellFormed() ensures WellFormedTable(ExistingWebsiteOptions) {}
  lemma ProjectDriverOptionsWellFormed() ensures WellFormedTable(ProjectDriverOptions) {}
  lemma TimelineOptionsWellFormed() ensures WellFormedTable(TimelineOptions) {}
  lemma BudgetOptionsWellFormed() ensures WellFormedTable(BudgetOptions) {}
  lemma ReferralSourceOptionsWellFormed() ensures WellFormedTable(ReferralSourceOptions) {}

  /** `getLabelFromValue`: the label of the first entry whose value equals
      `value`; when no entry matches (or the match has an empty label, which
      `||` treats as falsy) the value itself. */
  function LabelFromValue(options: seq<SelectOption>, value: string): (r: string)
    ensures forall i :: 0 <= i < |options| && options[i].value == value
                && (forall j :: 0 <= j < i ==> options[j].value != value)
                ==> r == (if options[i].labelText != "" then options[i].labelText else value)
    ensures !HasValue(options, value) ==> r == value
  {
    if |options| == 0 then value
    else if options[0].value == value then
      (if options[0].labelText != "" then options[0].labelText else value)
    else
      var r := LabelFromValue(options[1..], value);
      assert forall i :: 1 <= i < |options| ==> options[i] == options[1..][i - 1];
      r
  }

  /** In a well-formed table a hit is unique: looking up an entry's value
      yields exactly that entry's label. */
  lemma LookupHit(options: seq<SelectOption>, i: nat)
    requires WellFormedTable(options)
    requires i < |options|
    ensures LabelFromValue(options, options[i].value) == options[i].labelText
  {
  }

  /** `shown` is what the table says `value` means: the label of an entry
      carrying `value`, or `value` itself when no entry does. */
  predicate ResolvesIn(options: seq<SelectOption>, value: string, shown: string)
  {
    && (forall i :: 0 <= i < |options| && options[i].value == value ==> shown == options[i].labelText)
    && (!HasValue(options, value) ==> shown == value)
  }

  /** In a well-formed table every lookup resolves. */
  lemma LookupResolves(options: seq<SelectOption>, value: string)
    requires WellFormedTable(options)
    ensures ResolvesIn(options, value, LabelFromValue(options, value))
  {
    forall i | 0 <= i < |options| && options[i].value == value
      ensures LabelFromValue(options, value) == options[i].labelText
    {
      LookupHit(options, i);
    }
  }

  // ------------------------------------------------------------------ lead

  /** The form data the schema describes. Optional fields are `Option`s. */
  datatype Lead = Lead(
    fullName: string,
    email: string,
    phone: Option<string>,
    companyName: string,
    role: string,
    industry: string,
    projectType: string,
    hasExistingWebsite: string,
    currentWebsiteUrl: Option<string>,
    projectDrivers: seq<string>,
    timeline: string,
    budget: string,
    projectDescription: string,
    additionalNotes: Option<string>,
    referralSource: Option<string>,
    honeypot: Option<string>)

  /** The zod string formats, left uninterpreted. */
  datatype FormatChecks = FormatChecks(isEmail: string -> bool, isUrl: string -> bool)

  /** `contactSchema` as a validity predicate. */
  predicate IsValid(lead: Lead, checks: FormatChecks)
  {
    && Utf16Length(lead.fullName) >= 2
    && checks.isEmail(lead.email)
    && |lead.companyName| >= 1
    && |lead.role| >= 1
    && |lead.industry| >= 1
    && |lead.projectType| >= 1
    && |lead.hasExistingWebsite| >= 1
    && (lead.currentWebsiteUrl.None? || lead.currentWebsiteUrl.value == ""
        || checks.isUrl(lead.currentWebsiteUrl.value))
    && |lead.projectDrivers| >= 1
    && |lead.timeline| >= 1
    && |lead.budget| >= 1
    && Utf16Length(lead.projectDescription) >= 50
    && (lead.honeypot.None? || |lead.honeypot.value| <= 0)
  }

  /** The fields of the schema, in declaration order. */
  datatype Field =
    | FullName | Email | Phone | CompanyName | Role | Industry
    | ProjectType | HasExistingWebsite | CurrentWebsiteUrl | ProjectDrivers
    | Timeline | Budget | ProjectDescription | AdditionalNotes | ReferralSource
    | Honeypot

  const AllFields: seq<Field> := [
    FullName, Email, Phone, CompanyName, Role, Industry, ProjectType,
    HasExistingWebsite, CurrentWebsiteUrl, ProjectDrivers, Timeline, Budget,
    ProjectDescription, AdditionalNotes, ReferralSource, Honeypot
  ]

  /** The per-field rule of the schema, one field at a time. */
  predicate FieldOk(lead: Lead, checks: FormatChecks, f: Field)
  {
    match f
    case FullName => Utf16Length(lead.fullName) >= 2
    case Email => checks.isEmail(lead.email)
    case Phone => true
    case CompanyName => lead.companyName != ""
    case Role => lead.role != ""
    case Industry => lead.industry != ""
    case ProjectType => lead.projectType != ""
    case HasExistingWebsite => lead.hasExistingWebsite != ""
    case CurrentWebsiteUrl =>
      lead.currentWebsiteUrl.None? || lead.currentWebsiteUrl.value == ""
      || checks.isUrl(lead.currentWebsiteUrl.value)
    case ProjectDrivers => lead.projectDrivers != []
    case Timeline => lead.timeline != ""
    case Budget => lead.budget != ""
    case ProjectDescription => Utf16Length(lead.projectDescription) >= 50
    case AdditionalNotes => true
    case ReferralSource => true
    case Honeypot => !Truthy(lead.honeypot)
  }

  /** The fields among `fields` whose rule the record breaks, in order. */
  function FailingAmong(lead: Lead, checks: FormatChecks, fields: seq<Field>): (r: seq<Field>)
    ensures forall i :: 0 <= i < |r| ==> !FieldOk(lead, checks, r[i])
    ensures forall i :: 0 <= i < |fields| && !FieldOk(lead, checks, fields[i]) ==> fields[i] in r
    ensures forall i :: 0 <= i < |r| ==> r[i] in fields
  {
    Filter((f: Field) => !FieldOk(lead, checks, f), fields)
  }

  /** Every field of the schema is listed in `AllFields`. */
  lemma AllFieldsComplete(f: Field)
    ensures f in AllFields
  {
  }

  /** The fields that carry an error message after a failed parse. */
  function FailingFields(lead: Lead, checks: FormatChecks): (r: seq<Field>)
    ensures forall i :: 0 <= i < |r| ==> !FieldOk(lead, checks, r[i])
    ensures forall f: Field :: !FieldOk(lead, checks, f) ==> f in r
  {
    var r := FailingAmong(lead, checks, AllFields);
    assert forall f: Field :: !FieldOk(lead, checks, f) ==> f in r by {
      forall f: Field | !FieldOk(lead, checks, f) ensures f in r {
        AllFieldsComplete(f);
      }
    }
    r
  }

  /** The record passes the schema exactly when no field reports an error, so
      a submission is accepted or rejected as a whole. */
  lemma ValidIffNoFailingField(lead: Lead, checks: FormatChecks)
    ensures IsValid(lead, checks) <==> FailingFields(lead, checks) == []
  {
    var r := FailingFields(lead, checks);
    if IsValid(lead, checks) {
      if r != [] {
        ValidFieldOk(lead, checks, r[0]);
        assert false;
      }
    } else {
      var f := SomeFieldFails(lead, checks);
      assert f in r;
    }
  }

  lemma ValidFieldOk(lead: Lead, checks: FormatChecks, f: Field)
    requires IsValid(lead, checks)
    ensures FieldOk(lead, checks, f)
  {
  }

  lemma SomeFieldFails(lead: Lead, checks: FormatChecks) returns (f: Field)
    requires !IsValid(lead, checks)
    ensures !FieldOk(lead, checks, f)
  {
    if Utf16Length(lead.fullName) < 2 { f := FullName; }
    else if !checks.isEmail(lead.email) { f := Email; }
    else if lead.companyName == "" { f := CompanyName; }
    else if lead.role == "" { f := Role; }
    else if lead.industry == "" { f := Industry; }
    else if lead.projectType == "" { f := ProjectType; }
    else if lead.hasExistingWebsite == "" { f := HasExistingWebsite; }
    else if lead.projectDrivers == [] { f := ProjectDrivers; }
    else if lead.timeline == "" { f := Timeline; }
    else if lead.budget == "" { f := Budget; }
    else if Utf16Length(lead.projectDescription) < 50 { f := ProjectDescription; }
    else if Truthy(lead.honeypot) { f := Honeypot; }
    else { f := CurrentWebsiteUrl; }
  }

  /** The length rules: a valid record has a name of at least 2 characters,
      a description of at least 50 and every select answered; a record that
      breaks a length rule reports that field. */
  lemma LengthRules(lead: Lead, checks: FormatChecks)
    ensures IsValid(lead, checks) ==>
      && Utf16Length(lead.fullName) >= 2 && Utf16Length(lead.projectDescription) >= 50
      && lead.companyName != "" && lead.role != "" && lead.industry != ""
      && lead.projectType != "" && lead.hasExistingWebsite != ""
      && lead.timeline != "" && lead.budget != ""
    ensures Utf16Length(lead.fullName) < 2 ==> FullName in FailingFields(lead, checks)
    ensures Utf16Length(lead.projectDescription) < 50 ==> ProjectDescription in FailingFields(lead, checks)
    ensures lead.companyName == "" ==> CompanyName in FailingFields(lead, checks)
  {
    assert Utf16Length(lead.fullName) < 2 ==> !FieldOk(lead, checks, FullName);
    assert Utf16Length(lead.projectDescription) < 50 ==> !FieldOk(lead, checks, ProjectDescription);
    assert lead.companyName == "" ==> !FieldOk(lead, checks, CompanyName);
  }

  /** An empty driver list is rejected, whatever the other fields hold. */
  lemma EmptyDriversRejected(lead: Lead, checks: FormatChecks)
    requires lead.projectDrivers == []
    ensures !IsValid(lead, checks)
    ensures ProjectDrivers in FailingFields(lead, checks)
  {
    assert !FieldOk(lead, checks, ProjectDrivers);
  }

  /** A filled-in honeypot is rejected, whatever the other fields hold. */
  lemma HoneypotRejected(lead: Lead, checks: FormatChecks)
    requires Truthy(lead.honeypot)
    ensures !IsValid(lead, checks)
    ensures Honeypot in FailingFields(lead, checks)
  {
    assert !FieldOk(lead, checks, Honeypot);
  }

  /** The select fields are only checked for being non-empty: replacing them
      by any non-empty codes, known or not, keeps a valid record valid. */
  lemma EnumsCheckedOnlyForNonEmpty(lead: Lead, checks: FormatChecks,
      role: string, industry: string, projectType: string, existing: string,
      timeline: string, budget: string, drivers: seq<string>)
    requires role != "" && industry != "" && projectType != "" && existing != ""
    requires timeline != "" && budget != "" && drivers != []
    ensures IsValid(lead, checks) ==> IsValid(lead.(role := role, industry := industry,
      projectType := projectType, hasExistingWebsite := existing, timeline := timeline,
      budget := budget, projectDrivers := drivers), checks)
  {
  }

  /** A non-empty code that is not in its table is accepted by the schema and
      later labels to itself. */
  lemma UnknownCodeLabelsToItself(lead: Lead, checks: FormatChecks, code: string)
    requires IsValid(lead, checks)
    requires code != "" && !HasValue(RoleOptions, code)
    ensures IsValid(lead.(role := code), checks)
    ensures LabelFromValue(RoleOptions, code) == code
  {
  }

  /** The URL rule does not look at `hasExistingWebsite`: absent, empty or a
      URL is accepted whatever the answer to that question. */
  lemma UrlRuleIndependentOfExistingWebsite(lead: Lead, checks: FormatChecks, answer: string)
    requires answer != ""
    ensures FieldOk(lead, checks, CurrentWebsiteUrl) <==>
      FieldOk(lead.(hasExistingWebsite := answer), checks, CurrentWebsiteUrl)
    ensures lead.currentWebsiteUrl == None ==> FieldOk(lead, checks, CurrentWebsiteUrl)
    ensures lead.currentWebsiteUrl == Some("") ==> FieldOk(lead, checks, CurrentWebsiteUrl)
    ensures lead.hasExistingWebsite != "" ==>
      (IsValid(lead, checks) <==> IsValid(lead.(hasExistingWebsite := answer), checks))
  {
  }

  /** `phone`, `additionalNotes` and `referralSource` are unconstrained. */
  lemma OptionalFieldsUnconstrained(lead: Lead, checks: FormatChecks,
      phone: Option<string>, notes: Option<string>, referral: Option<string>)
    ensures IsValid(lead, checks) <==>
      IsValid(lead.(phone := phone, additionalNotes := notes, referralSource := referral), checks)
  {
  }

  /** Lengths are JavaScript lengths: a name made of one character outside
      the Basic Multilingual Plane has two code units and passes `min(2)`,
      while a single ordinary letter does not. */
  lemma NameLengthCountsCodeUnits(lead: Lead, checks: FormatChecks)
    ensures |"\U{1F600}"| == 1
    ensures FieldOk(lead.(fullName := "\U{1F600}"), checks, FullName)
    ensures !FieldOk(lead.(fullName := "J"), checks, FullName)
  {
    assert Utf16Length("\U{1F600}") == 2 + Utf16Length("\U{1F600}"[1..]);
  }
}

=== FILE: floating_nav.dfy ===
/** The floating header `FloatingNav`: desktop entries with hover dropdowns
    keyed by `href`, and a full-screen mobile overlay that locks page
    scrolling while it is open and closes on navigation. The two React
    effects (close on a new pathname, mirror the menu state into
    `document.body.style.overflow`) run after every event. */
module FloatingNav {
  import opened Js
  import opened Navigation

  datatype State = State(
    pathname: string,
    isMobileMenuOpen: bool,
    openDropdown: Option<string>,
    bodyOverflow: string)

  datatype Event =
    | Enter(i: nat)          // the mouse enters desktop entry i
    | Leave(i: nat)          // the mouse leaves desktop entry i
    | ToggleMenu             // the hamburger button
    | OverlayLink            // any link inside the overlay
    | OverlayCta             // the "Start a Project" button in the overlay
    | Navigate(to: string)   // the router reports a pathname

  predicate ValidEvent(e: Event)
  {
    (e.Enter? || e.Leave?) ==> e.i < |MainNavigation|
  }

  /** The value the scroll-lock effect writes. */
  function OverflowFor(open: bool): string
  {
    if open then "hidden" else ""
  }

  function Initial(pathname: string): (s: State)
    ensures Consistent(s)
  {
    State(pathname, false, None, OverflowFor(false))
  }

  /** The handler's own state change, before the effects run. */
  function Handle(s: State, e: Event): (r: State)
    requires ValidEvent(e)
    ensures r.bodyOverflow == s.bodyOverflow
    ensures !e.Navigate? ==> r.pathname == s.pathname
    ensures e.Enter? || e.Leave? || e.Navigate? ==> r.isMobileMenuOpen == s.isMobileMenuOpen
    ensures r.openDropdown != s.openDropdown ==> e.Enter? || e.Leave?
    ensures r.openDropdown.Some? && r.openDropdown != s.openDropdown ==>
      e.Enter? && MainNavigation[e.i].children.Some? && r.openDropdown.value == MainNavigation[e.i].href
  {
    match e
    case Enter(i) =>
      if MainNavigation[i].children.Some? then s.(openDropdown := Some(MainNavigation[i].href)) else s
    case Leave(_) => s.(openDropdown := None)
    case ToggleMenu => s.(isMobileMenuOpen := !s.isMobileMenuOpen)
    case OverlayLink => s.(isMobileMenuOpen := false)
    case OverlayCta => s.(isMobileMenuOpen := false)
    case Navigate(p) => s.(pathname := p)
  }

  /** One event followed by the effects whose dependencies changed. */
  function Step(s: State, e: Event): (r: State)
    requires ValidEvent(e)
    ensures Consistent(r)
    ensures r.pathname != s.pathname ==> !r.isMobileMenuOpen
    ensures e.Leave? ==> r.openDropdown == None
    ensures e.Enter? && MainNavigation[e.i].children.Some? ==> r.openDropdown == Some(MainNavigation[e.i].href)
    ensures e.Enter? && MainNavigation[e.i].children.None? ==> r.openDropdown == s.openDropdown
    ensures e == ToggleMenu ==> r.isMobileMenuOpen == !s.isMobileMenuOpen
    ensures e == OverlayLink || e == OverlayCta ==> !r.isMobileMenuOpen
    ensures e.Navigate? ==> r.pathname == e.to
    ensures !e.Navigate? ==> r.pathname == s.pathname
    ensures e.Navigate? && e.to != s.pathname ==> !r.isMobileMenuOpen
    ensures e.Navigate? && e.to == s.pathname ==> r.isMobileMenuOpen == s.isMobileMenuOpen
    ensures e.Enter? || e.Leave? ==> r.isMobileMenuOpen == s.isMobileMenuOpen
    ensures !(e.Enter? || e.Leave?) ==> r.openDropdown == s.openDropdown
  {
    var h := Handle(s, e);
    var closed := if h.pathname != s.pathname then h.(isMobileMenuOpen := false) else h;
    closed.(bodyOverflow := OverflowFor(closed.isMobileMenuOpen))
  }

  /** Page scrolling is locked exactly while the overlay is open. */
  predicate Consistent(s: State)
  {
    s.bodyOverflow == (if s.isMobileMenuOpen then "hidden" else "")
  }

  /** Unmounting runs the effect's cleanup, which always releases the lock. */
  function Unmount(s: State): (r: State)
    ensures r.bodyOverflow == ""
  {
    s.(bodyOverflow := "")
  }

  /** The open dropdown, if any, is the `href` of an entry with a submenu. */
  predicate DropdownInv(openDropdown: Option<string>)
  {
    openDropdown.Some? ==>
      exists i :: 0 <= i < |MainNavigation| && MainNavigation[i].children.Some?
               && MainNavigation[i].href == openDropdown.value
  }

  /** The desktop dropdown keyed by an `href` only ever belongs to an entry
      with a submenu, whatever events arrive; in the main navigation that is
      the Services entry alone. */
  lemma {:induction false} DropdownOnlyForSubmenus(s: State, events: seq<Event>)
    requires forall k :: 0 <= k < |events| ==> ValidEvent(events[k])
    requires DropdownInv(s.openDropdown)
    ensures DropdownInv(Run(s, events).openDropdown)
    ensures Run(s, events).openDropdown.Some? ==> Run(s, events).openDropdown.value == "/services"
    ensures |events| > 0 ==> Consistent(Run(s, events))
    decreases |events|
  {
    if |events| > 0 {
      var next := Step(s, events[0]);
      assert DropdownInv(next.openDropdown) by {
        if events[0].Enter? && MainNavigation[events[0].i].children.Some? {
          assert MainNavigation[events[0].i].href == next.openDropdown.value;
        }
      }
      DropdownOnlyForSubmenus(next, events[1..]);
    } else {
      MainNavigationShape();
    }
  }

  function Run(s: State, events: seq<Event>): State
    requires forall k :: 0 <= k < |events| ==> ValidEvent(events[k])
    decreases |events|
  {
    if |events| == 0 then s else Run(Step(s, events[0]), events[1..])
  }

  /** The desktop bar highlights a whole section; the overlay only the exact
      page. On a service page "Services" is highlighted in the bar but not in
      the overlay. */
  lemma DesktopAndOverlayDiffer()
    ensures IsActive("/services/seo", "/services")
    ensures !IsExactlyActive("/services/seo", "/services")
  {
    assert "/services/seo"[..10] == "/services/";
  }
}

=== FILE: js.dfy ===
/** JavaScript value conventions shared by the whole model: optional values
    (`undefined`/`null` versus a present value) and the truthiness of strings
    that `a || b` and `if (a)` rely on. */
module Js {

  /** A value that may be absent (`undefined` or `null` in the source). */
  datatype Option<+T> = None | Some(value: T)

  /** JavaScript truthiness of an optional string: absent and `''` are falsy. */
  predicate Truthy(s: Option<string>)
  {
    s.Some? && s.value != ""
  }

  /** `s || fallback` for an optional string. */
  function OrElse(s: Option<string>, fallback: string): (r: string)
    ensures Truthy(s) ==> r == s.value
    ensures !Truthy(s) ==> r == fallback
    ensures r != "" <== fallback != ""
  {
    if Truthy(s) then s.value else fallback
  }

  /** The state-update idiom `prev === x ? null : x`: choosing the current
      item clears the choice, and choosing any other item makes it current. */
  function ToggleOption<T(==)>(current: Option<T>, x: T): (r: Option<T>)
    ensures r.None? <==> current == Some(x)
    ensures r.Some? ==> r.value == x
  {
    if current == Some(x) then None else Some(x)
  }
}

=== FILE: metadata.dfy ===
/** `createMetadata`: the page metadata every route exports, built from an
    optional title, description, path and image. */
module Metadata {
  import opened Js
  import opened Strings

  const SiteName := "Clarity Digital"
  const DefaultSiteUrl := "https://claritydigital.dev"
  const DefaultDescription :=
    "Web design, development & SaaS for real estate, wellness, and luxury brands. Based in Lexington, Kentucky."

  datatype OpenGraph = OpenGraph(
    title: string,
    description: string,
    url: string,
    siteName: string,
    images: Option<seq<string>>,
    kind: string)

  datatype Twitter = Twitter(card: string, title: string, description: string)

  datatype PageMetadata = PageMetadata(
    title: string,
    description: string,
    metadataBase: string,
    openGraph: OpenGraph,
    twitter: Twitter)

  /** `NEXT_PUBLIC_SITE_URL || 'https://claritydigital.dev'`. */
  function SiteUrl(env: Option<string>): (r: string)
    ensures Truthy(env) ==> r == env.value
    ensures !Truthy(env) ==> r == DefaultSiteUrl
    ensures r != ""
  {
    OrElse(env, DefaultSiteUrl)
  }

  /** `title ? "<title> | Clarity Digital" : "Clarity Digital"`. */
  function FullTitle(title: Option<string>): (r: string)
    ensures !Truthy(title) ==> r == SiteName
    ensures Truthy(title) ==>
      StartsWith(r, title.value) && r[|title.value|..] == " | " + SiteName
  {
    if Truthy(title) then title.value + " | " + SiteName else SiteName
  }

  /** The page's own title and description are used when given (an empty
      one counts as absent); otherwise the site name and the default
      description. */
  function CreateMetadata(env: Option<string>, title: Option<string>, description: Option<string>,
                          path: Option<string>, image: Option<string>): (m: PageMetadata)
    ensures m.title == FullTitle(title)
    ensures Truthy(description) ==> m.description == description.value
    ensures !Truthy(description) ==> m.description == DefaultDescription
    ensures m.metadataBase == SiteUrl(env)
  {
    var full := FullTitle(title);
    var desc := OrElse(description, DefaultDescription);
    var site := SiteUrl(env);
    PageMetadata(full, desc, site,
      OpenGraph(full, desc, site + (if path.Some? then path.value else ""), SiteName,
                if Truthy(image) then Some([image.value]) else None, "website"),
      Twitter("summary_large_image", full, desc))
  }

  /** The Open Graph and Twitter cards repeat the top-level title and
      description, which is never empty. */
  lemma CardsAgree(env: Option<string>, title: Option<string>, description: Option<string>,
                   path: Option<string>, image: Option<string>)
    ensures
      var m := CreateMetadata(env, title, description, path, image);
      && m.openGraph.title == m.title && m.twitter.title == m.title
      && m.openGraph.description == m.description && m.twitter.description == m.description
      && m.description != ""
  {
  }

  /** Without a path the Open Graph url is the site url itself; without a
      title or description the site name and the default description are
      used, and an empty one is treated as absent. */
  lemma Defaults(env: Option<string>, image: Option<string>)
    ensures CreateMetadata(env, None, None, None, image).openGraph.url == SiteUrl(env)
    ensures CreateMetadata(env, Some(""), Some(""), None, image)
         == CreateMetadata(env, None, None, None, image)
    ensures CreateMetadata(env, None, None, None, image).title == SiteName
    ensures CreateMetadata(env, None, None, None, image).description == DefaultDescription
  {
    assert SiteUrl(env) + "" == SiteUrl(env);
  }

  /** The shared link is the site url followed by the page path; a page
      with an image shares exactly that one image and a page without one
      shares none. */
  lemma SharedLinks(env: Option<string>, title: Option<string>, description: Option<string>,
                    p: string, image: Option<string>)
    ensures
      var m := CreateMetadata(env, title, description, Some(p), image);
      && m.openGraph.url == SiteUrl(env) + p
      && (m.openGraph.images.Some? <==> Truthy(image))
      && (Truthy(image) ==> m.openGraph.images == Some([image.value]))
      && m.openGraph.siteName == SiteName && m.openGraph.kind == "website"
      && m.twitter.card == "summary_large_image"
  {
  }
}

=== FILE: mobile_nav.dfy ===
/** The older mobile header `MobileNav`: a menu button, one expandable
    submenu keyed by title, and links that close the menu. */
module MobileNav {
  import opened Js

  datatype State = State(isOpen: bool, openSubmenu: Option<string>)

  datatype Event = MenuButton | ToggleSubmenu(title: string) | LinkClick

  const Initial := State(false, None)

  /** `toggleSubmenu(title)`: closes `title` when it is the open one and opens
      it otherwise. */
  function Toggle(openSubmenu: Option<string>, title: string): Option<string>
  {
    ToggleOption(openSubmenu, title)
  }

  function Step(s: State, e: Event): (r: State)
    ensures e.MenuButton? ==> r.isOpen == !s.isOpen
    ensures e.LinkClick? ==> !r.isOpen
    ensures e.ToggleSubmenu? ==> r.isOpen == s.isOpen && r.openSubmenu == Toggle(s.openSubmenu, e.title)
    ensures !e.ToggleSubmenu? ==> r.openSubmenu == s.openSubmenu
  {
    match e
    case MenuButton => s.(isOpen := !s.isOpen)
    case ToggleSubmenu(t) => s.(openSubmenu := Toggle(s.openSubmenu, t))
    case LinkClick => s.(isOpen := false)
  }

  /** Toggling the same title twice closes it when it started closed (nothing
      open, or another title open), and leaves it open when it started open. */
  lemma ToggleTwice(openSubmenu: Option<string>, title: string)
    ensures openSubmenu != Some(title) ==> Toggle(Toggle(openSubmenu, title), title) == None
    ensures openSubmenu == Some(title) ==> Toggle(Toggle(openSubmenu, title), title) == Some(title)
  {
  }

  /** Toggling one title never opens another: after it, only that title or
      nothing is open. */
  lemma ToggleOnlyTouchesTitle(openSubmenu: Option<string>, title: string)
    ensures Toggle(openSubmenu, title) in {None, Some(title)}
    ensures Toggle(openSubmenu, title) == Some(title) <==> openSubmenu != Some(title)
  {
  }

  /** Two presses of the menu button restore the state; a link closes the
      menu and leaves the submenu as it was, so reopening the menu shows the
      same submenu. */
  lemma MenuButtonAndLinks(s: State)
    ensures Step(Step(s, MenuButton), MenuButton) == s
    ensures !Step(s, LinkClick).isOpen
    ensures Step(s, LinkClick).openSubmenu == s.openSubmenu
    ensures Step(Step(s, LinkClick), MenuButton) == s.(isOpen := true)
  {
  }
}

=== FILE: nav.dfy ===
/** The desktop header `Nav`: hovering an entry with a submenu opens that
    submenu, keyed by the entry's title; leaving it closes it. Entries without
    a submenu have no hover handlers at all. */
module Nav {
  import opened Js
  import opened Navigation

  /** A mouse event on the `i`-th entry of the main navigation. */
  datatype Hover = Enter(i: nat) | Leave(i: nat)

  /** The state after one event; `openDropdown` holds a title or nothing. */
  function Step(openDropdown: Option<string>, e: Hover): (r: Option<string>)
    requires e.i < |MainNavigation|
    ensures MainNavigation[e.i].children.None? ==> r == openDropdown
    ensures MainNavigation[e.i].children.Some? && e.Enter? ==> r == Some(MainNavigation[e.i].title)
    ensures MainNavigation[e.i].children.Some? && e.Leave? ==> r == None
  {
    var item := MainNavigation[e.i];
    if item.children.None? then openDropdown
    else match e
      case Enter(_) => Some(item.title)
      case Leave(_) => None
  }

  predicate ValidEvents(events: seq<Hover>)
  {
    forall k :: 0 <= k < |events| ==> events[k].i < |MainNavigation|
  }

  function Run(openDropdown: Option<string>, events: seq<Hover>): Option<string>
    requires ValidEvents(events)
    decreases |events|
  {
    if |events| == 0 then openDropdown
    else Run(Step(openDropdown, events[0]), events[1..])
  }

  /** The open dropdown, if any, belongs to an entry that has a submenu. */
  predicate Inv(openDropdown: Option<string>)
  {
    openDropdown.Some? ==>
      exists i :: 0 <= i < |MainNavigation| && MainNavigation[i].children.Some?
               && MainNavigation[i].title == openDropdown.value
  }

  /** From the closed initial state, any sequence of hovers leaves at most one
      dropdown open, and only one of an entry with a submenu. */
  lemma {:induction false} RunKeepsInv(openDropdown: Option<string>, events: seq<Hover>)
    requires ValidEvents(events) && Inv(openDropdown)
    ensures Inv(Run(openDropdown, events))
    decreases |events|
  {
    if |events| > 0 {
      var next := Step(openDropdown, events[0]);
      assert Inv(next);
      RunKeepsInv(next, events[1..]);
    }
  }

  /** The dropdown of entry `i` is drawn when its title is the open one; since
      titles are distinct, no two entries show their dropdown at once. */
  predicate DropdownShown(openDropdown: Option<string>, i: nat)
    requires i < |MainNavigation|
  {
    MainNavigation[i].children.Some? && openDropdown == Some(MainNavigation[i].title)
  }

  lemma AtMostOneDropdown(openDropdown: Option<string>, i: nat, j: nat)
    requires i < |MainNavigation| && j < |MainNavigation| && i != j
    ensures !(DropdownShown(openDropdown, i) && DropdownShown(openDropdown, j))
  {
    MainNavigationShape();
  }
}

=== FILE: navigation.dfy ===
/** The site's main navigation table and the rule the headers use to
    highlight the current section. */
module Navigation {
  import opened Js
  import opened Strings

  datatype Link = Link(title: string, href: string)

  /** A top-level entry; only some entries carry a submenu. */
  datatype NavItem = NavItem(title: string, href: string, children: Option<seq<Link>>)

  const ServiceLinks: seq<Link> := [
    Link("Web Design", "/services/web-design"),
    Link("Web Development", "/services/web-development"),
    Link("SaaS Creation", "/services/saas-creation"),
    Link("SEO Solutions", "/services/seo")
  ]

  const MainNavigation: seq<NavItem> := [
    NavItem("Work", "/work", None),
    NavItem("Services", "/services", Some(ServiceLinks)),
    NavItem("About", "/about", None),
    NavItem("Contact", "/contact", None)
  ]

  /** `pathname === href || pathname.startsWith(href + '/')`. */
  predicate IsActive(pathname: string, href: string)
  {
    pathname == href || StartsWith(pathname, href + "/")
  }

  /** The rule for submenu links and for the floating header's overlay. */
  predicate IsExactlyActive(pathname: string, href: string)
  {
    pathname == href
  }

  /** An entry is active exactly when its `href` is a prefix of the path that
      ends at the end of the path or at a `/`: it matches whole segments. */
  lemma ActiveIffSegmentPrefix(pathname: string, href: string)
    ensures IsActive(pathname, href) <==>
      StartsWith(pathname, href) && (|pathname| == |href| || pathname[|href|] == '/')
  {
    if StartsWith(pathname, href) && |pathname| > |href| && pathname[|href|] == '/' {
      assert pathname[..|href| + 1] == pathname[..|href|] + [pathname[|href|]];
    }
    if StartsWith(pathname, href + "/") {
      assert pathname[..|href|] == (href + "/")[..|href|];
    }
  }

  /** Exact matching implies the section rule, never the other way round in
      general. */
  lemma ExactImpliesActive(pathname: string, href: string)
    requires IsExactlyActive(pathname, href)
    ensures IsActive(pathname, href)
  {
  }

  /** `/work` is active on its own pages but not on `/workshop`. */
  lemma WorkNotActiveOnWorkshop()
    ensures !IsActive("/workshop", "/work")
    ensures IsActive("/work", "/work")
    ensures IsActive("/work/acme", "/work")
  {
    ActiveIffSegmentPrefix("/workshop", "/work");
    assert "/workshop"[5] == 's';
    ActiveIffSegmentPrefix("/work/acme", "/work");
    assert "/work/acme"[..5] == "/work";
  }

  /** Titles and hrefs of the top-level entries are distinct, only "Services"
      has a submenu, and every submenu page lies inside its section. */
  lemma MainNavigationShape()
    ensures forall i, j :: 0 <= i < j < |MainNavigation| ==>
      MainNavigation[i].title != MainNavigation[j].title &&
      MainNavigation[i].href != MainNavigation[j].href
    ensures forall i :: 0 <= i < |MainNavigation| ==>
      (MainNavigation[i].children.Some? <==> i == 1)
    ensures forall k :: 0 <= k < |ServiceLinks| ==> IsActive(ServiceLinks[k].href, "/services")
  {
    forall k | 0 <= k < |ServiceLinks|
      ensures IsActive(ServiceLinks[k].href, "/services")
    {
      assert ServiceLinks[k].href[..10] == "/services/";
    }
  }
}

=== FILE: project_filter.dfy ===
/** `ProjectFilter`: industry and service chips that report the new
    selection to the parent, and a Clear button. The component holds no
    state; the model gives what each click reports and what is drawn. */
module ProjectFilter {
  import opened Js

  /** What a click hands to the parent's callbacks. */
  datatype Emitted =
    | IndustryChange(industry: Option<string>)
    | ServiceChange(service: Option<string>)
    | ClearRequested

  /** The chip rule: the selected slug is deselected, any other is selected. */
  function ChipValue(selected: Option<string>, slug: string): Option<string>
  {
    ToggleOption(selected, slug)
  }

  datatype Props = Props(
    industries: seq<string>,   // the industry slugs, in display order
    services: seq<string>,     // the service slugs, in display order
    selectedIndustry: Option<string>,
    selectedService: Option<string>)

  datatype Button = IndustryChip(i: nat) | ServiceChip(i: nat) | Clear

  /** The buttons a user can see. */
  predicate Visible(p: Props, b: Button)
  {
    match b
    case IndustryChip(i) => i < |p.industries|
    case ServiceChip(i) => i < |p.services|
    case Clear => ShowClear(p)
  }

  /** `hasFilters`: either selection is truthy. */
  predicate ShowClear(p: Props)
  {
    Truthy(p.selectedIndustry) || Truthy(p.selectedService)
  }

  predicate ShowDivider(p: Props)
  {
    |p.industries| > 0 && |p.services| > 0
  }

  function Press(p: Props, b: Button): Emitted
    requires Visible(p, b)
  {
    match b
    case IndustryChip(i) => IndustryChange(ChipValue(p.selectedIndustry, p.industries[i]))
    case ServiceChip(i) => ServiceChange(ChipValue(p.selectedService, p.services[i]))
    case Clear => ClearRequested
  }

  /** A service chip reports the same value whatever industry is selected,
      and an industry chip likewise ignores the service selection. */
  lemma SelectionsIndependent(p: Props, b: Button, industry: Option<string>, service: Option<string>)
    requires b.IndustryChip? || b.ServiceChip?
    requires Visible(p, b)
    ensures b.ServiceChip? ==> Press(p, b) == Press(p.(selectedIndustry := industry), b)
    ensures b.IndustryChip? ==> Press(p, b) == Press(p.(selectedService := service), b)
  {
  }

  /** Pressing a chip that is not selected and then pressing it again, once
      the parent has applied the first value, leaves nothing selected. */
  lemma ChipTwiceRestoresNothingSelected(selected: Option<string>, slug: string)
    requires selected != Some(slug)
    ensures ChipValue(ChipValue(selected, slug), slug) == None
  {
  }

  /** With no selection there is no Clear button; an empty-string selection
      counts as none. */
  lemma ClearNeedsASelection(p: Props)
    ensures ShowClear(p) <==>
      (p.selectedIndustry.Some? && p.selectedIndustry.value != "") ||
      (p.selectedService.Some? && p.selectedService.value != "")
    ensures p.selectedIndustry in {None, Some("")} && p.selectedService in {None, Some("")} ==> !Visible(p, Clear)
  {
  }

  /** A chip deselects its slug when that slug is the current selection and
      selects it otherwise; the value always names that chip or nothing. */
  lemma ChipRule(p: Props, b: Button)
    requires b.IndustryChip? || b.ServiceChip?
    requires Visible(p, b)
    ensures b.IndustryChip? ==>
      && (Press(p, b) == IndustryChange(None) <==> p.selectedIndustry == Some(p.industries[b.i]))
      && (Press(p, b) == IndustryChange(Some(p.industries[b.i])) <==> p.selectedIndustry != Some(p.industries[b.i]))
    ensures b.ServiceChip? ==>
      && (Press(p, b) == ServiceChange(None) <==> p.selectedService == Some(p.services[b.i]))
      && (Press(p, b) == ServiceChange(Some(p.services[b.i])) <==> p.selectedService != Some(p.services[b.i]))
  {
  }

  /** The divider between the two chip rows is drawn exactly when both rows
      have at least one chip. */
  lemma DividerNeedsBothLists(p: Props)
    ensures ShowDivider(p) <==>
      (exists i :: Visible(p, IndustryChip(i))) && (exists j :: Visible(p, ServiceChip(j)))
  {
    if ShowDivider(p) {
      assert Visible(p, IndustryChip(0)) && Visible(p, ServiceChip(0));
    }
  }
}

=== FILE: project_grid.dfy ===
/** The work page's `ProjectGrid`: a row of service-type tabs over the
    project list, a placeholder when there are no projects and a "no match"
    message with a reset link when the selected tab matches nothing. */
module ProjectGrid {
  import opened Seqs

  /** The fields of a CMS project the grid looks at. */
  datatype Project = Project(id: string, serviceType: string)

  /** One filter tab: the value compared with `serviceType`, and its caption. */
  datatype Tab = Tab(value: string, caption: string)

  const AllFilter := "all"

  const ServiceTypes: seq<Tab> := [
    Tab("all", "All"),
    Tab("Web Design", "Web Design"),
    Tab("Web Development", "Development"),
    Tab("SaaS Platform", "SaaS"),
    Tab("E-Commerce", "E-Commerce")
  ]

  /** The filter values a tab click can select. */
  predicate IsTabValue(f: string)
  {
    exists i :: 0 <= i < |ServiceTypes| && ServiceTypes[i].value == f
  }

  /** `filteredProjects`. */
  function FilteredProjects(projects: seq<Project>, filter: string): (r: seq<Project>)
    ensures filter == AllFilter ==> r == projects
    ensures filter != AllFilter ==>
      && (forall i :: 0 <= i < |r| ==> r[i].serviceType == filter)
      && (forall i :: 0 <= i < |projects| && projects[i].serviceType == filter ==> projects[i] in r)
    ensures IsSubsequence(r, projects)
  {
    if filter == AllFilter then
      SubsequenceRefl(projects);
      projects
    else
      var keep := (p: Project) => p.serviceType == filter;
      FilterIsSubsequence(keep, projects);
      Filter(keep, projects)
  }

  lemma {:induction false} SubsequenceRefl<T>(s: seq<T>)
    ensures IsSubsequence(s, s)
  {
    if |s| > 0 {
      SubsequenceRefl(s[1..]);
    }
  }

  /** A concrete filter keeps every matching project as often as it occurs
      and drops the others entirely. */
  lemma FilterKeepsMultiplicity(projects: seq<Project>, filter: string, p: Project)
    requires filter != AllFilter
    ensures Count(FilteredProjects(projects, filter), p) ==
      if p.serviceType == filter then Count(projects, p) else 0
  {
    FilterCount((q: Project) => q.serviceType == filter, projects, p);
  }

  /** What the grid renders. */
  datatype View = Placeholder | Grid(shown: seq<Project>, noMatch: bool)

  function Render(projects: seq<Project>, filter: string): (v: View)
    ensures projects == [] <==> v == Placeholder
    ensures v.Grid? ==> v.shown == FilteredProjects(projects, filter)
    ensures v.Grid? ==> (v.noMatch <==> v.shown == [])
  {
    if |projects| == 0 then Placeholder
    else
      var shown := FilteredProjects(projects, filter);
      Grid(shown, |shown| == 0)
  }

  /** The initial tab is "all" and "View all projects" goes back to it; with
      at least one project the grid then shows every project and never the
      "no match" message. */
  lemma ViewAllShowsEverything(projects: seq<Project>)
    requires projects != []
    ensures Render(projects, AllFilter) == Grid(projects, false)
  {
  }

  /** No tab selects `'SEO'`, so an SEO project is on screen only under "all". */
  lemma SeoOnlyUnderAll(projects: seq<Project>, filter: string, i: nat)
    requires IsTabValue(filter)
    requires i < |projects| && projects[i].serviceType == "SEO"
    ensures projects[i] in FilteredProjects(projects, filter) <==> filter == AllFilter
  {
    if filter != AllFilter {
      var k :| 0 <= k < |ServiceTypes| && ServiceTypes[k].value == filter;
      assert filter != "SEO";
      var r := FilteredProjects(projects, filter);
      assert forall j :: 0 <= j < |r| ==> r[j].serviceType != "SEO";
    }
  }
}

=== FILE: revalidate_route.dfy ===
/** `POST /api/revalidate`: the CMS webhook. The `secret` query parameter
    must equal the configured secret; the document's `_type` then selects
    which cache tags are invalidated. The cache itself is not modelled: the
    outcome lists the tags handed to `revalidateTag`, in call order. */
module RevalidateRoute {
  import opened Js

  /** The `_type` member of the parsed body: missing, a string, or some other
      JSON value (which matches no `case` of the switch). */
  datatype TypeField = Absent | Text(name: string) | NonString

  /** The request body after `request.json()`: not JSON at all, the JSON
      `null` (destructuring it throws), or any other JSON value. */
  datatype Body = Malformed | NullBody | Doc(docType: TypeField)

  datatype ResponseBody =
    | Revalidated(echoedType: TypeField, now: int)
    | ErrorBody(error: string)

  datatype Response = Response(status: int, body: ResponseBody)

  datatype Outcome = Outcome(response: Response, tags: seq<string>)

  const InvalidSecret := Response(401, ErrorBody("Invalid secret"))
  const Failure := Response(500, ErrorBody("Failed to revalidate"))

  /** Every tag the site's queries are cached under. */
  const AllTags: seq<string> := ["projects", "services", "testimonials", "industries", "settings"]

  /** The document type each tag belongs to, as a lookup table. */
  const TypeTag: map<string, string> := map[
    "project" := "projects",
    "service" := "services",
    "testimonial" := "testimonials",
    "industry" := "industries",
    "siteSettings" := "settings"
  ]

  /** `secret !== process.env.SANITY_REVALIDATE_SECRET` negated. An absent
      query parameter is `null` and an unset variable is `undefined`; the two
      are never strictly equal, so only two present, equal strings match. */
  predicate SecretMatches(secret: Option<string>, configured: Option<string>)
  {
    secret.Some? && configured.Some? && secret.value == configured.value
  }

  /** The tags the `switch` on `_type` revalidates. */
  function TagsFor(t: TypeField): (r: seq<string>)
    ensures t.Text? && t.name in TypeTag ==> r == [TypeTag[t.name]]
    ensures !(t.Text? && t.name in TypeTag) ==> r == AllTags
    ensures forall i :: 0 <= i < |r| ==> r[i] in AllTags
  {
    if t == Text("project") then ["projects"]
    else if t == Text("service") then ["services"]
    else if t == Text("testimonial") then ["testimonials"]
    else if t == Text("industry") then ["industries"]
    else if t == Text("siteSettings") then ["settings"]
    else AllTags
  }

  /** The handler; `now` is `Date.now()`. */
  function Post(secret: Option<string>, configured: Option<string>, body: Body, now: int): (o: Outcome)
    ensures !SecretMatches(secret, configured) ==> o == Outcome(InvalidSecret, [])
    ensures SecretMatches(secret, configured) && !body.Doc? ==> o == Outcome(Failure, [])
    ensures SecretMatches(secret, configured) && body.Doc? ==>
      && o.response == Response(200, Revalidated(body.docType, now))
      && o.tags == TagsFor(body.docType)
    ensures o.response.status == 200 <==> o.tags != []
  {
    if !SecretMatches(secret, configured) then Outcome(InvalidSecret, [])
    else match body
      case Doc(t) => Outcome(Response(200, Revalidated(t, now)), TagsFor(t))
      case _ => Outcome(Failure, [])
  }

  /** The secret is checked before the body is read: a wrong secret is
      answered 401 whatever the body, malformed or not. */
  lemma SecretCheckedFirst(secret: Option<string>, configured: Option<string>,
                           b1: Body, b2: Body, now: int)
    requires !SecretMatches(secret, configured)
    ensures Post(secret, configured, b1, now) == Post(secret, configured, b2, now)
    ensures Post(secret, configured, b1, now).response.status == 401
    ensures Post(secret, configured, b1, now).tags == []
  {
  }

  /** With no secret configured every request is refused, even one without
      a `secret` parameter. */
  lemma UnsetSecretRefusesAll(secret: Option<string>, body: Body, now: int)
    ensures Post(secret, None, body, now).response == InvalidSecret
  {
  }

  /** Each known type invalidates exactly its own tag, and distinct known
      types invalidate distinct tags. */
  lemma KnownTypesAreSelective(a: string, b: string)
    requires a in TypeTag && b in TypeTag && a != b
    ensures |TagsFor(Text(a))| == 1 && |TagsFor(Text(b))| == 1
    ensures TagsFor(Text(a)) != TagsFor(Text(b))
  {
  }

  /** The known types between them cover every tag, and an unknown or missing
      type invalidates all of them. */
  lemma EveryTagReachable(tag: string, t: TypeField)
    requires tag in AllTags
    requires !(t.Text? && t.name in TypeTag)
    ensures exists name :: name in TypeTag && TagsFor(Text(name)) == [tag]
    ensures tag in TagsFor(t)
  {
    var names := ["project", "service", "testimonial", "industry", "siteSettings"];
    var i :| 0 <= i < 5 && AllTags[i] == tag;
    assert TagsFor(Text(names[i])) == [tag];
  }
}

=== FILE: seqs.dfy ===
/** Sequence helpers with the meaning of `Array.prototype.filter`,
    element counting and order-preserving selection. */
module Seqs {

  /** Number of occurrences of `x` in `s`. */
  function Count<T(==)>(s: seq<T>, x: T): (n: nat)
    ensures n <= |s|
    ensures n == 0 <==> x !in s
  {
    if |s| == 0 then 0
    else (if s[0] == x then 1 else 0) + Count(s[1..], x)
  }

  lemma {:induction false} CountConcat<T>(a: seq<T>, b: seq<T>, x: T)
    ensures Count(a + b, x) == Count(a, x) + Count(b, x)
  {
    if |a| == 0 {
      assert a + b == b;
    } else {
      assert (a + b)[1..] == a[1..] + b;
      CountConcat(a[1..], b, x);
    }
  }

  /** `a` is obtained from `b` by deleting elements, keeping the order. */
  predicate IsSubsequence<T(==)>(a: seq<T>, b: seq<T>)
    decreases |b|
  {
    if |a| == 0 then true
    else if |b| == 0 then false
    else if a[0] == b[0] then IsSubsequence(a[1..], b[1..])
    else IsSubsequence(a, b[1..])
  }

  /** `s.filter(keep)`: the elements satisfying `keep`, in their original order. */
  function Filter<T>(keep: T -> bool, s: seq<T>): (r: seq<T>)
    ensures |r| <= |s|
    ensures forall i :: 0 <= i < |r| ==> r[i] in s && keep(r[i])
    ensures forall i :: 0 <= i < |s| && keep(s[i]) ==> s[i] in r
  {
    if |s| == 0 then []
    else if keep(s[0]) then [s[0]] + Filter(keep, s[1..])
    else Filter(keep, s[1..])
  }

  /** The filtered sequence keeps the order of the original one. */
  lemma {:induction false} FilterIsSubsequence<T>(keep: T -> bool, s: seq<T>)
    ensures IsSubsequence(Filter(keep, s), s)
  {
    if |s| > 0 {
      FilterIsSubsequence(keep, s[1..]);
      var r := Filter(keep, s[1..]);
      if keep(s[0]) {
        assert ([s[0]] + r)[1..] == r;
      } else {
        SubsequenceOfTail(r, s);
      }
    }
  }

  lemma {:induction false} SubsequenceOfTail<T>(a: seq<T>, b: seq<T>)
    requires |b| > 0
    requires IsSubsequence(a, b[1..])
    ensures IsSubsequence(a, b)
    decreases |b|, 0
  {
    if |a| > 0 && a[0] == b[0] {
      SubsequenceDropHead(a, b[1..]);
    }
  }

  lemma {:induction false} SubsequenceDropHead<T>(a: seq<T>, b: seq<T>)
    requires |a| > 0
    requires IsSubsequence(a, b)
    ensures IsSubsequence(a[1..], b)
    decreases |b|, 1
  {
    assert |b| > 0;
    if a[0] == b[0] {
      if |a[1..]| > 0 {
        SubsequenceDropHead(a[1..], b[1..]);
        assert IsSubsequence(a[1..][1..], b[1..]);
        SubsequenceOfTail(a[1..], b);
      } else {
        assert IsSubsequence(a[1..], b);
      }
    } else {
      SubsequenceDropHead(a, b[1..]);
      SubsequenceOfTail(a[1..], b);
    }
  }

  /** Each element `keep` accepts occurs as often in the result as in the input;
      the others do not occur at all. */
  lemma {:induction false} FilterCount<T>(keep: T -> bool, s: seq<T>, x: T)
    ensures Count(Filter(keep, s), x) == if keep(x) then Count(s, x) else 0
  {
    if |s| > 0 {
      FilterCount(keep, s[1..], x);
      if keep(s[0]) {
        assert ([s[0]] + Filter(keep, s[1..]))[1..] == Filter(keep, s[1..]);
      }
    }
  }

  lemma {:induction false} FilterConcat<T>(keep: T -> bool, a: seq<T>, b: seq<T>)
    ensures Filter(keep, a + b) == Filter(keep, a) + Filter(keep, b)
  {
    if |a| == 0 {
      assert a + b == b;
    } else {
      assert (a + b)[1..] == a[1..] + b;
      FilterConcat(keep, a[1..], b);
    }
  }

  /** Filtering with a predicate every element satisfies changes nothing. */
  lemma {:induction false} FilterKeepsAll<T>(keep: T -> bool, s: seq<T>)
    requires forall i :: 0 <= i < |s| ==> keep(s[i])
    ensures Filter(keep, s) == s
  {
    if |s| > 0 {
      FilterKeepsAll(keep, s[1..]);
      assert [s[0]] + s[1..] == s;
    }
  }

  /** `s.map(f)`. */
  function Map<T, U>(f: T -> U, s: seq<T>): (r: seq<U>)
    ensures |r| == |s|
    ensures forall i :: 0 <= i < |s| ==> r[i] == f(s[i])
  {
    seq(|s|, i requires 0 <= i < |s| => f(s[i]))
  }
}

=== FILE: service_content.dfy ===
/** The text handling of a service page (`ServiceContent`): the
    business-impact copy and non-bullet subsections are split into
    paragraphs on blank lines, and a subsection whose trimmed content starts
    with a bullet character is rendered as a list of bullets. */
module ServiceContent {
  import opened Seqs
  import opened Strings

  const Bullet: char := '\U{2022}'
  const ParagraphBreak := "\n\n"

  /** `content.trim().startsWith('•')`. */
  predicate IsBulletList(content: string)
  {
    StartsWith(Trim(content), [Bullet])
  }

  /** `content.split('\n\n')`. */
  function Paragraphs(content: string): (r: seq<string>)
    ensures |r| >= 1
    ensures Join(r, ParagraphBreak) == content
  {
    JoinSplit(content, ParagraphBreak);
    SplitOn(content, ParagraphBreak)
  }

  /** The pieces between bullet characters, each trimmed. */
  function TrimmedPieces(content: string): (r: seq<string>)
    ensures |r| == |SplitOn(content, [Bullet])| == Occurrences(content, Bullet) + 1
    ensures forall i :: 0 <= i < |r| ==> r[i] == Trim(SplitOn(content, [Bullet])[i])
    ensures forall i :: 0 <= i < |r| ==> Bullet !in r[i]
  {
    var pieces := SplitOn(content, [Bullet]);
    SplitOnCharShape(content, Bullet);
    var r := Map(Trim, pieces);
    assert forall i :: 0 <= i < |r| ==> Bullet !in r[i] by {
      forall i | 0 <= i < |r| ensures Bullet !in r[i] {
        assert r[i] == Trim(pieces[i]);
        assert Bullet !in pieces[i];
      }
    }
    r
  }

  predicate NonEmpty(s: string)
  {
    |s| > 0
  }

  /** `content.split('•').map(b => b.trim()).filter(b => b.length > 0)`. */
  function Bullets(content: string): (r: seq<string>)
    ensures forall i :: 0 <= i < |r| ==> r[i] != ""
    ensures forall i :: 0 <= i < |r| ==> Bullet !in r[i]
    ensures forall i :: 0 <= i < |r| ==> !IsSpace(r[i][0]) && !IsSpace(r[i][|r[i]| - 1])
    ensures IsSubsequence(r, TrimmedPieces(content))
    ensures |r| <= Occurrences(content, Bullet) + 1
  {
    var pieces := TrimmedPieces(content);
    FilterIsSubsequence(NonEmpty, pieces);
    var r := Filter(NonEmpty, pieces);
    assert forall i :: 0 <= i < |r| ==> exists j :: 0 <= j < |pieces| && r[i] == pieces[j];
    r
  }

  /** Every non-empty trimmed piece becomes a bullet, as often as it occurs,
      and nothing else does. */
  lemma BulletsKeepNonEmptyPieces(content: string, b: string)
    ensures Count(Bullets(content), b) == if b != "" then Count(TrimmedPieces(content), b) else 0
  {
    FilterCount(NonEmpty, TrimmedPieces(content), b);
  }

  /** A content block without any bullet character is never a bullet list. */
  lemma NoBulletCharNoList(content: string)
    requires Bullet !in content
    ensures !IsBulletList(content)
  {
  }

  /** A subsection of a content section. */
  datatype Subsection = Subsection(title: string, content: string)

  /** A `{ title, content, subsections? }` block from the service document. */
  datatype Section = Section(title: string, content: string, subsections: seq<Subsection>)

  /** How one subsection of "why alternatives fail" is rendered. */
  datatype Block =
    | BulletBlock(heading: string, bullets: seq<string>)
    | ParagraphBlock(heading: string, paragraphs: seq<string>)

  function RenderSubsection(s: Subsection): (b: Block)
    ensures b.heading == s.title
    ensures b.BulletBlock? <==> IsBulletList(s.content)
    ensures b.BulletBlock? ==> b.bullets == Bullets(s.content)
    ensures b.ParagraphBlock? ==> Join(b.paragraphs, ParagraphBreak) == s.content
  {
    if IsBulletList(s.content) then BulletBlock(s.title, Bullets(s.content))
    else ParagraphBlock(s.title, Paragraphs(s.content))
  }

  /** The rendered subsections, one block per subsection, in order; an empty
      list renders no subsection grid at all. */
  function RenderSubsections(section: Section): (r: seq<Block>)
    ensures |r| == |section.subsections|
    ensures forall i :: 0 <= i < |r| ==> r[i] == RenderSubsection(section.subsections[i])
    ensures section.subsections == [] ==> r == []
  {
    Map(RenderSubsection, section.subsections)
  }
}

=== FILE: service_faq.dfy ===
/** `ServiceFaq`: an accordion in which at most one answer is open; the
    first question starts open. */
module ServiceFaq {
  import opened Js

  /** `useState<number | null>(0)`. */
  const InitialOpen: Option<nat> := Some(0)

  /** The click handler of question `index`. */
  function Click(openIndex: Option<nat>, index: nat): Option<nat>
  {
    ToggleOption(openIndex, index)
  }

  /** The answer of question `index` is rendered only while it is open. */
  predicate AnswerShown(openIndex: Option<nat>, index: nat)
  {
    openIndex == Some(index)
  }

  /** At the start only the first answer is shown. */
  lemma InitiallyFirstOpen(index: nat)
    ensures AnswerShown(InitialOpen, index) <==> index == 0
  {
  }

  /** After a click only the clicked answer can be shown, and it is shown
      exactly when it was hidden before. */
  lemma ClickOpensOnlyClicked(openIndex: Option<nat>, index: nat, other: nat)
    requires other != index
    ensures !AnswerShown(Click(openIndex, index), other)
    ensures AnswerShown(Click(openIndex, index), index) <==> !AnswerShown(openIndex, index)
  {
  }

  /** Clicking a closed question twice closes everything; clicking an open one
      twice reopens it. */
  lemma ClickTwice(openIndex: Option<nat>, index: nat)
    ensures openIndex != Some(index) ==> Click(Click(openIndex, index), index) == None
    ensures openIndex == Some(index) ==> Click(Click(openIndex, index), index) == Some(index)
  {
  }

  /** Whatever the clicks, no two answers are shown together. */
  lemma AtMostOneShown(openIndex: Option<nat>, i: nat, j: nat)
    requires i != j
    ensures !(AnswerShown(openIndex, i) && AnswerShown(openIndex, j))
  {
  }
}

=== FILE: strings.dfy ===
/** The JavaScript string operations the site relies on: `startsWith`,
    `split` with a non-empty separator, `split('')`, `join` and `trim`.
    A Dafny `char` is a Unicode scalar value, whereas JavaScript strings are
    sequences of UTF-16 code units; `Utf16Length` gives the JavaScript
    `length`, and the other operations here work on scalar values. */
module Strings {
  import opened Seqs

  /** `s.startsWith(p)`. */
  predicate StartsWith(s: string, p: string)
  {
    |p| <= |s| && s[..|p|] == p
  }

  /** `s.split(sep)` for a non-empty separator: scanning left to right, every
      occurrence of `sep` that does not overlap an earlier one cuts the string. */
  function SplitOn(s: string, sep: string): (r: seq<string>)
    requires |sep| > 0
    ensures |r| >= 1
    decreases |s|
  {
    if |s| < |sep| then [s]
    else if s[..|sep|] == sep then [""] + SplitOn(s[|sep|..], sep)
    else
      var rest := SplitOn(s[1..], sep);
      [[s[0]] + rest[0]] + rest[1..]
  }

  /** `parts.join(sep)`. */
  function Join(parts: seq<string>, sep: string): string
  {
    if |parts| == 0 then ""
    else if |parts| == 1 then parts[0]
    else parts[0] + sep + Join(parts[1..], sep)
  }

  /** Joining the pieces of a split with the same separator gives back the
      original string. */
  lemma {:induction false} JoinSplit(s: string, sep: string)
    requires |sep| > 0
    ensures Join(SplitOn(s, sep), sep) == s
    decreases |s|
  {
    if |s| < |sep| {
    } else if s[..|sep|] == sep {
      var rest := SplitOn(s[|sep|..], sep);
      JoinSplit(s[|sep|..], sep);
      assert ([""] + rest)[1..] == rest;
      assert s == s[..|sep|] + s[|sep|..];
    } else {
      var rest := SplitOn(s[1..], sep);
      JoinSplit(s[1..], sep);
      JoinExtendHead(s[0], rest, sep);
      assert s == [s[0]] + s[1..];
    }
  }

  /** Prepending a character to the first piece prepends it to the join. */
  lemma JoinExtendHead(c: char, parts: seq<string>, sep: string)
    requires |parts| >= 1
    ensures Join([[c] + parts[0]] + parts[1..], sep) == [c] + Join(parts, sep)
  {
    var q := [[c] + parts[0]] + parts[1..];
    if |parts| > 1 {
      assert q[1..] == parts[1..];
    }
  }

  /** Number of times the character `c` occurs in `s`. */
  function Occurrences(s: string, c: char): nat
  {
    Count(s, c)
  }

  /** Splitting on a single character gives one piece more than there are
      occurrences of it, and no piece contains it. */
  lemma {:induction false} SplitOnCharShape(s: string, c: char)
    ensures |SplitOn(s, [c])| == Occurrences(s, c) + 1
    ensures forall i :: 0 <= i < |SplitOn(s, [c])| ==> c !in SplitOn(s, [c])[i]
    decreases |s|
  {
    if |s| == 0 {
    } else if s[..1] == [c] {
      SplitOnCharShape(s[1..], c);
      assert s[0] == c;
      var rest := SplitOn(s[1..], [c]);
      assert SplitOn(s, [c]) == [""] + rest;
      forall i | 0 <= i < |SplitOn(s, [c])|
        ensures c !in SplitOn(s, [c])[i]
      {
        if i > 0 { assert SplitOn(s, [c])[i] == rest[i - 1]; }
      }
    } else {
      SplitOnCharShape(s[1..], c);
      assert s[0] != c by { assert s[..1] == [s[0]]; }
      var rest := SplitOn(s[1..], [c]);
      var r := [[s[0]] + rest[0]] + rest[1..];
      assert SplitOn(s, [c]) == r;
      forall i | 0 <= i < |r|
        ensures c !in r[i]
      {
        if i > 0 { assert r[i] == rest[i]; }
        else { assert c !in rest[0]; }
      }
    }
  }

  /** `s.split('')`: one single-character string per character (Unicode
      scalar value); the empty
      string gives no pieces at all. */
  function Chars(s: string): (r: seq<string>)
    ensures |r| == |s|
    ensures forall i :: 0 <= i < |s| ==> r[i] == [s[i]]
  {
    seq(|s|, i requires 0 <= i < |s| => [s[i]])
  }

  /** The concatenation of a sequence of strings (`parts.join('')`). */
  function Concat(parts: seq<string>): string
  {
    if |parts| == 0 then "" else parts[0] + Concat(parts[1..])
  }

  /** Concatenating the characters of a string gives back the string. */
  lemma {:induction false} ConcatChars(s: string)
    ensures Concat(Chars(s)) == s
  {
    if |s| > 0 {
      ConcatChars(s[1..]);
      assert Chars(s)[1..] == Chars(s[1..]);
      assert s == [s[0]] + s[1..];
    }
  }

  /** The characters `String.prototype.trim` removes: the ECMAScript
      WhiteSpace and LineTerminator code points. */
  predicate IsSpace(c: char)
  {
    || c == ' ' || c == '\t' || c == '\n' || c == '\r'
    || c == '\U{000B}' || c == '\U{000C}' || c == '\U{00A0}' || c == '\U{FEFF}'
    || c == '\U{1680}' || ('\U{2000}' <= c <= '\U{200A}')
    || c == '\U{2028}' || c == '\U{2029}' || c == '\U{202F}' || c == '\U{205F}'
    || c == '\U{3000}'
  }

  /** Length of the run of white space at the start of `s`. */
  function LeadingSpace(s: string): (k: nat)
    ensures k <= |s|
    ensures forall i :: 0 <= i < k ==> IsSpace(s[i])
    ensures k < |s| ==> !IsSpace(s[k])
  {
    if |s| > 0 && IsSpace(s[0]) then 1 + LeadingSpace(s[1..]) else 0
  }

  /** Length of the run of white space at the end of `s`. */
  function TrailingSpace(s: string): (k: nat)
    ensures k <= |s|
    ensures forall i :: |s| - k <= i < |s| ==> IsSpace(s[i])
    ensures k < |s| ==> !IsSpace(s[|s| - 1 - k])
  {
    if |s| > 0 && IsSpace(s[|s| - 1]) then 1 + TrailingSpace(s[..|s| - 1]) else 0
  }

  /** `s.trim()`: the slice of `s` between its leading and trailing white
      space; it neither starts nor ends with white space. */
  function Trim(s: string): (r: string)
    ensures LeadingSpace(s) + |r| <= |s|
    ensures r == s[LeadingSpace(s)..LeadingSpace(s) + |r|]
    ensures forall i :: 0 <= i < LeadingSpace(s) ==> IsSpace(s[i])
    ensures forall i :: LeadingSpace(s) + |r| <= i < |s| ==> IsSpace(s[i])
    ensures |r| > 0 ==> !IsSpace(r[0]) && !IsSpace(r[|r| - 1])
    ensures forall i :: 0 <= i < |r| ==> r[i] in s
  {
    var t := s[LeadingSpace(s)..];
    var r := t[..|t| - TrailingSpace(t)];
    assert forall i :: 0 <= i < |r| ==> r[i] == s[LeadingSpace(s) + i];
    r
  }

  /** Replaces every occurrence of the character `c` by `d`. */
  function ReplaceChar(s: string, c: char, d: char): (r: string)
    ensures |r| == |s|
    ensures forall i :: 0 <= i < |s| ==> r[i] == if s[i] == c then d else s[i]
  {
    seq(|s|, i requires 0 <= i < |s| => if s[i] == c then d else s[i])
  }

  /** Splitting on `c` and joining with `d` replaces every `c` by `d`. */
  lemma {:induction false} JoinSplitReplaces(s: string, c: char, d: char)
    ensures Join(SplitOn(s, [c]), [d]) == ReplaceChar(s, c, d)
    decreases |s|
  {
    if |s| == 0 {
    } else if s[..1] == [c] {
      var rest := SplitOn(s[1..], [c]);
      JoinSplitReplaces(s[1..], c, d);
      assert ([""] + rest)[1..] == rest;
      assert ReplaceChar(s, c, d) == [d] + ReplaceChar(s[1..], c, d);
    } else {
      var rest := SplitOn(s[1..], [c]);
      JoinSplitReplaces(s[1..], c, d);
      JoinExtendHead(s[0], rest, [d]);
      assert s[0] != c by { assert s[..1] == [s[0]]; }
      assert ReplaceChar(s, c, d) == [s[0]] + ReplaceChar(s[1..], c, d);
    }
  }

  /** `s` without any occurrence of `c`. */
  function DeleteChar(s: string, c: char): (r: string)
    ensures |r| == |s| - Occurrences(s, c)
    ensures c !in r
    ensures forall i :: 0 <= i < |r| ==> r[i] in s
  {
    if |s| == 0 then ""
    else if s[0] == c then DeleteChar(s[1..], c)
    else [s[0]] + DeleteChar(s[1..], c)
  }

  /** Concatenating the pieces of a split on `c` deletes every `c`. */
  lemma {:induction false} ConcatSplitDeletes(s: string, c: char)
    ensures Concat(SplitOn(s, [c])) == DeleteChar(s, c)
    decreases |s|
  {
    if |s| == 0 {
    } else if s[..1] == [c] {
      var rest := SplitOn(s[1..], [c]);
      ConcatSplitDeletes(s[1..], c);
      assert s[0] == c by { assert s[..1] == [s[0]]; }
      assert ([""] + rest)[1..] == rest;
    } else {
      var rest := SplitOn(s[1..], [c]);
      ConcatSplitDeletes(s[1..], c);
      assert s[0] != c by { assert s[..1] == [s[0]]; }
      var q := [[s[0]] + rest[0]] + rest[1..];
      assert q[1..] == rest[1..];
      assert Concat(rest) == rest[0] + Concat(rest[1..]);
    }
  }

  /** The first piece of a split on `c` is the prefix of `s` up to the first
      `c`, or all of `s` when it has none. */
  lemma {:induction false} SplitOnCharHead(s: string, c: char)
    ensures StartsWith(s, SplitOn(s, [c])[0])
    ensures c !in SplitOn(s, [c])[0]
    ensures |SplitOn(s, [c])[0]| < |s| ==> s[|SplitOn(s, [c])[0]|] == c
    decreases |s|
  {
    if |s| > 0 && s[..1] != [c] {
      SplitOnCharHead(s[1..], c);
      assert s[0] != c by { assert s[..1] == [s[0]]; }
      assert s == [s[0]] + s[1..];
    } else if |s| > 0 {
      assert s[0] == c by { assert s[..1] == [s[0]]; }
    }
  }

  /** The JavaScript `length` of a string: one UTF-16 code unit for a
      character of the Basic Multilingual Plane, two (a surrogate pair) for
      any other. */
  function Utf16Length(s: string): (n: nat)
    ensures |s| <= n <= 2 * |s|
    ensures (forall i :: 0 <= i < |s| ==> (s[i] as int) < 0x1_0000) ==> n == |s|
  {
    if |s| == 0 then 0
    else (if (s[0] as int) < 0x1_0000 then 1 else 2) + Utf16Length(s[1..])
  }
}

=== FILE: testimonial_marquee.dfy ===
/** `TestimonialMarquee`: the testimonials are split into two rows of nearly
    equal length, and each row is rendered as four back-to-back copies so the
    scrolling loop has no gap; the last two copies are hidden from assistive
    technology. Testimonials are opaque values here. */
module TestimonialMarquee {

  /** `Math.ceil(n / 2)`. */
  function Midpoint(n: nat): (m: nat)
    ensures 2 * m == n || 2 * m == n + 1
  {
    (n + 1) / 2
  }

  /** The two rows: `slice(0, midpoint)` and `slice(midpoint)`. */
  function SplitRows<T>(items: seq<T>): (rows: (seq<T>, seq<T>))
    ensures rows.0 + rows.1 == items
    ensures |rows.0| == Midpoint(|items|)
    ensures 0 <= |rows.0| - |rows.1| <= 1
  {
    var m := Midpoint(|items|);
    assert items[..m] + items[m..] == items;
    (items[..m], items[m..])
  }

  /** One rendered card: the item and whether its copy is `aria-hidden`. */
  datatype Card<T> = Card(item: T, hidden: bool)

  /** The cards of one copy of a row. */
  function Copy<T>(row: seq<T>, hidden: bool): (r: seq<Card<T>>)
    ensures |r| == |row|
    ensures forall i :: 0 <= i < |row| ==> r[i] == Card(row[i], hidden)
  {
    seq(|row|, i requires 0 <= i < |row| => Card(row[i], hidden))
  }

  /** One marquee row: copies a and b visible, copies c and d hidden. */
  function Track<T>(row: seq<T>): (r: seq<Card<T>>)
    ensures |r| == 4 * |row|
  {
    Copy(row, false) + Copy(row, false) + Copy(row, true) + Copy(row, true)
  }

  /** Copy `k` (0 to 3) of the track holds the row in order; copies 0 and 1
      are visible, copies 2 and 3 hidden. */
  lemma TrackCopies<T>(row: seq<T>, k: nat, i: nat)
    requires k < 4 && i < |row|
    ensures Track(row)[k * |row| + i] == Card(row[i], k >= 2)
  {
    var n := |row|;
    var a := Copy(row, false);
    var c := Copy(row, true);
    assert Track(row) == a + a + c + c;
    if k == 0 {
      assert (a + a + c + c)[i] == a[i];
    } else if k == 1 {
      assert (a + a + c + c)[n + i] == a[i];
    } else if k == 2 {
      assert (a + a + c + c)[2 * n + i] == c[i];
    } else {
      assert (a + a + c + c)[3 * n + i] == c[i];
    }
  }

  /** Exactly half of a track's cards are visible. */
  lemma HalfVisible<T>(row: seq<T>)
    ensures Track(row)[..2 * |row|] == Copy(row, false) + Copy(row, false)
    ensures forall i :: 0 <= i < 2 * |row| ==> !Track(row)[i].hidden
    ensures forall i :: 2 * |row| <= i < 4 * |row| ==> Track(row)[i].hidden
  {
    var a := Copy(row, false);
    var c := Copy(row, true);
    assert Track(row) == (a + a) + (c + c);
  }

  /** What the section renders. */
  datatype View<T> = Placeholder | Marquee(top: seq<Card<T>>, bottom: seq<Card<T>>)

  function Render<T>(items: seq<T>): (v: View<T>)
    ensures items == [] <==> v.Placeholder?
    ensures v.Marquee? ==>
      && v.top == Track(SplitRows(items).0)
      && v.bottom == Track(SplitRows(items).1)
  {
    if |items| == 0 then Placeholder
    else
      var rows := SplitRows(items);
      Marquee(Track(rows.0), Track(rows.1))
  }

  /** Every testimonial appears in exactly one row, and that row's visible
      cards show it twice. */
  lemma EveryItemShown<T>(items: seq<T>, j: nat)
    requires j < |items|
    ensures
      var rows := SplitRows(items);
      var m := |rows.0|;
      if j < m then Track(rows.0)[j] == Card(items[j], false)
               && Track(rows.0)[m + j] == Card(items[j], false)
      else Track(rows.1)[j - m] == Card(items[j], false)
           && Track(rows.1)[|rows.1| + j - m] == Card(items[j], false)
  {
    var rows := SplitRows(items);
    var m := |rows.0|;
    if j < m {
      assert rows.0[j] == items[j];
      TrackCopies(rows.0, 0, j);
      TrackCopies(rows.0, 1, j);
    } else {
      assert rows.1[j - m] == items[j];
      TrackCopies(rows.1, 0, j - m);
      TrackCopies(rows.1, 1, j - m);
    }
  }
}

=== FILE: text_reveal.dfy ===
/** `TextReveal`: a string is cut into characters, words or lines, each
    piece animated on its own; word pieces are followed by a non-breaking
    space except the last. */
module TextReveal {
  import opened Seqs
  import opened Strings

  /** The `type` prop; `Other` stands for any value outside the three names. */
  datatype RevealType = Char | Word | Line | Other

  const Nbsp: char := '\U{00A0}'

  /** The `items` the `switch` on `type` produces. */
  function Items(text: string, t: RevealType): seq<string>
  {
    match t
    case Char => Chars(text)
    case Word => SplitOn(text, " ")
    case Line => SplitOn(text, "\n")
    case Other => SplitOn(text, " ")
  }

  /** The text inside each animated span. The space is added when `type` is
      exactly `'word'`, so an unknown type splits like words but renders them
      without separators. */
  function Rendered(text: string, t: RevealType): seq<string>
  {
    var items := Items(text, t);
    seq(|items|, i requires 0 <= i < |items| =>
      items[i] + (if t == Word && i < |items| - 1 then [Nbsp] else []))
  }

  /** The characters put back together give the text; `''` gives no span. */
  lemma CharItemsRoundTrip(text: string)
    ensures Concat(Items(text, Char)) == text
    ensures |Items(text, Char)| == |text|
  {
    ConcatChars(text);
  }

  /** Words joined with spaces give the text, and there is one word more
      than there are spaces. */
  lemma WordItemsRoundTrip(text: string)
    ensures Join(Items(text, Word), " ") == text
    ensures |Items(text, Word)| == Occurrences(text, ' ') + 1
  {
    JoinSplit(text, " ");
    SplitOnCharShape(text, ' ');
  }

  /** Lines joined with newlines give the text, one line more than newlines. */
  lemma LineItemsRoundTrip(text: string)
    ensures Join(Items(text, Line), "\n") == text
    ensures |Items(text, Line)| == Occurrences(text, '\n') + 1
  {
    JoinSplit(text, "\n");
    SplitOnCharShape(text, '\n');
  }

  /** Only `'word'` adds the non-breaking space; the other types render their
      items untouched. */
  lemma SpacerOnlyForWords(text: string, t: RevealType)
    requires t != Word
    ensures Rendered(text, t) == Items(text, t)
  {
    var r := Rendered(text, t);
    var items := Items(text, t);
    forall i | 0 <= i < |r|
      ensures r[i] == items[i]
    {
      assert r[i] == items[i] + [];
    }
  }

  /** Appending the separator to every piece but the last and concatenating
      is the same as joining. */
  lemma {:induction false} ConcatWithSpacers(parts: seq<string>, sep: string)
    requires |parts| >= 1
    ensures Concat(seq(|parts|, i requires 0 <= i < |parts| =>
      parts[i] + (if i < |parts| - 1 then sep else []))) == Join(parts, sep)
  {
    var spaced := seq(|parts|, i requires 0 <= i < |parts| =>
      parts[i] + (if i < |parts| - 1 then sep else []));
    if |parts| > 1 {
      var tail := parts[1..];
      ConcatWithSpacers(tail, sep);
      var spacedTail := seq(|tail|, i requires 0 <= i < |tail| =>
        tail[i] + (if i < |tail| - 1 then sep else []));
      assert spaced[1..] == spacedTail;
      assert spaced[0] == parts[0] + sep;
    }
  }

  /** Read as one string, a word reveal shows the text with every space
      turned into a non-breaking one. */
  lemma WordRevealReadsAsText(text: string)
    ensures Concat(Rendered(text, Word)) == ReplaceChar(text, ' ', Nbsp)
  {
    var items := Items(text, Word);
    ConcatWithSpacers(items, [Nbsp]);
    assert Rendered(text, Word) == seq(|items|, i requires 0 <= i < |items| =>
      items[i] + (if i < |items| - 1 then [Nbsp] else []));
    JoinSplitReplaces(text, ' ', Nbsp);
  }

  /** An unknown type cuts the text exactly as `'word'` does, but with no
      spacer the words run together: read as one string, every space of the
      text is gone. */
  lemma OtherRevealDropsSpaces(text: string)
    ensures Items(text, Other) == Items(text, Word)
    ensures Concat(Rendered(text, Other)) == DeleteChar(text, ' ')
  {
    SpacerOnlyForWords(text, Other);
    ConcatSplitDeletes(text, ' ');
  }
}

=== FILE: theme_provider.dfy ===
/** `ThemeProvider` and `useTheme`: a dark/light theme that starts from the
    default, adopts a stored choice on mount, and is written back to storage
    and to the root element's class once mounted. Storage and the DOM are
    fields of the state. */
module ThemeProvider {
  import opened Js

  datatype Theme = Dark | Light

  function Name(t: Theme): string
  {
    match t
    case Dark => "dark"
    case Light => "light"
  }

  const DefaultTheme := Dark

  datatype State = State(
    theme: Theme,
    mounted: bool,
    stored: Option<string>,     // localStorage 'theme'
    rootClass: Option<Theme>)   // the theme class on <html>, once written

  function Initial(defaultTheme: Theme, stored: Option<string>): (s: State)
    ensures !s.mounted && s.theme == defaultTheme && s.stored == stored
  {
    State(defaultTheme, false, stored, None)
  }

  /** The stored value parsed: only the two exact names are accepted. */
  function Parse(stored: Option<string>): (r: Option<Theme>)
    ensures r == Some(Dark) <==> stored == Some("dark")
    ensures r == Some(Light) <==> stored == Some("light")
  {
    if stored == Some("dark") then Some(Dark)
    else if stored == Some("light") then Some(Light)
    else None
  }

  /** The persisting effect; it does nothing before mount. */
  function Persist(s: State): (r: State)
    ensures r.theme == s.theme && r.mounted == s.mounted
    ensures !s.mounted ==> r == s
    ensures s.mounted ==> InSync(r)
  {
    if !s.mounted then s else s.(stored := Some(Name(s.theme)), rootClass := Some(s.theme))
  }

  /** The mount effect followed by the persisting effect. */
  function Mount(s: State): (r: State)
    ensures r.mounted
    ensures Parse(s.stored).Some? ==> r.theme == Parse(s.stored).value
    ensures Parse(s.stored).None? ==> r.theme == s.theme
    ensures r.stored == Some(Name(r.theme)) && r.rootClass == Some(r.theme)
  {
    var adopted := match Parse(s.stored)
      case Some(t) => s.(theme := t)
      case None => s;
    Persist(adopted.(mounted := true))
  }

  function Toggled(t: Theme): (r: Theme)
    ensures r != t
  {
    match t
    case Dark => Light
    case Light => Dark
  }

  function ToggleTheme(s: State): (r: State)
    ensures r.theme != s.theme && r.mounted == s.mounted
    ensures !s.mounted ==> r.stored == s.stored && r.rootClass == s.rootClass
    ensures s.mounted ==> InSync(r)
  {
    Persist(s.(theme := Toggled(s.theme)))
  }

  function SetTheme(s: State, t: Theme): (r: State)
    ensures r.theme == t && r.mounted == s.mounted
    ensures !s.mounted ==> r.stored == s.stored && r.rootClass == s.rootClass
    ensures s.mounted ==> InSync(r)
  {
    Persist(s.(theme := t))
  }

  /** The provider renders nothing before mount. */
  predicate RendersChildren(s: State)
  {
    s.mounted
  }

  /** Toggling twice gives back the original theme, and storage agrees. */
  lemma ToggleTwice(s: State)
    ensures ToggleTheme(s).theme != s.theme
    ensures ToggleTheme(ToggleTheme(s)).theme == s.theme
    ensures s.mounted ==> ToggleTheme(ToggleTheme(s)).stored == Some(Name(s.theme))
  {
  }

  /** With no usable stored value the default theme wins, and the default
      default is dark. */
  lemma DefaultKept(stored: Option<string>)
    requires stored != Some("dark") && stored != Some("light")
    ensures Mount(Initial(DefaultTheme, stored)).theme == Dark
  {
  }

  /** Before mount nothing is rendered and nothing is written, whatever the
      theme does. */
  lemma NothingBeforeMount(s: State, t: Theme)
    requires !s.mounted
    ensures !RendersChildren(s)
    ensures SetTheme(s, t).stored == s.stored && SetTheme(s, t).rootClass == s.rootClass
    ensures ToggleTheme(s).stored == s.stored
  {
  }

  /** Once mounted, storage and the root class always follow the theme. */
  predicate InSync(s: State)
  {
    s.mounted && s.stored == Some(Name(s.theme)) && s.rootClass == Some(s.theme)
  }

  lemma MountedStaysInSync(s: State, t: Theme)
    requires s.mounted
    ensures InSync(ToggleTheme(s)) && InSync(SetTheme(s, t))
  {
  }

  /** `useTheme`: the context inside a provider, an error outside one. */
  datatype Lookup = Context(theme: Theme) | Raised(message: string)

  function UseTheme(provider: Option<State>): (r: Lookup)
    ensures r.Raised? <==> provider.None?
    ensures provider.Some? ==> r == Context(provider.value.theme)
  {
    match provider
    case None => Raised("useTheme must be used within a ThemeProvider")
    case Some(s) => Context(s.theme)
  }

  /** Inside a provider `useTheme` yields the provider's theme; outside one
      it raises, whatever the caller does next. */
  lemma UseThemeNeedsProvider(s: State)
    ensures UseTheme(None).Raised? && UseTheme(None).message == "useTheme must be used within a ThemeProvider"
    ensures UseTheme(Some(s)) == Context(s.theme)
  {
  }
}
